=== FILE: README.md ===
# html — a Dafny model of the template loader

This project models the core of the Go package `html`. The package is a thin layer over Go's
`html/template`. It does four things:

- **Scan.** It walks the configured directories and registers every file whose name ends in
  `.html` and does not start with `_` under a view name. The name is the file's path relative to
  its directory, with the first `.html` removed and, on Windows, backslashes turned into slashes. A directory listed earlier in the configuration wins
  over a later one.
- **Register.** Callers may add more sources by hand, either file-backed (`AddFile`) or inline
  (`AddText`).
- **Compose.** Callers derive *sets* of source entries plus helper functions from other sets
  (`Add`, `Set`, `AddSets`, `AddFunc`, `AddFuncs`). Each operation returns a shallow copy, so the
  derived set shares state with its origin (see "Left out").
- **Build.** It builds a *view* from a set in four steps:
  1. Load every entry's text through the registry.
  2. Parse each source into named fragment trees.
  3. Admit the trees under the root rule. A source's unnamed root fragment is kept only when it is
     that source's sole tree, and a second such root is a redefinition error.
  4. Add the admitted trees to a namespace that starts with an empty dummy fragment, then validate
     it. Validation requires a root, and requires every fragment invoked by `{{template}}` (inside
     lists, `if` and `range`) to be defined.

The modules follow the source files:

| module | file | contents |
|---|---|---|
| `Errors` | errors.dfy | `Option`, `Result`, `Outcome` and the package's error conditions |
| `Strings` | strings.dfy | the `strings` functions the scan uses (`HasPrefix`, `HasSuffix`, `Index`, `Replace`) |
| `Trees` | trees.dfy | parse trees reduced to node kinds, invoked names and `IsEmptyTree` |
| `Funcs` | funcs.dfy | helper-function identities and the default helper map |
| `Parse` | parse.dfy | `requiredTemplates`, `validateTemplate`, `createTemplate` and the namespace `AddParseTree` builds |
| `Load` | load.dfy | `scan`, `NewLoader`, `AddFile`/`AddText`, `Sources`, `loadSources`, `parseSources`, `buildTemplate` |
| `Sets` | set.dfy | the set combinators, `Funcs`/`Sources` copies, `create`, `View` and `ViewMust` |

The environment becomes explicit inputs:

- **File system.** A `FileSystem` value holds, per directory, the entries `filepath.Walk` would
  visit (or an error in their place). It also holds the readable files with their contents, and
  whether the path separator is a backslash.
- **Template library.** A `Library` value holds the parser (`parse.Parse`) as a function from a
  request to trees or a syntax error. It also holds the failures `AddParseTree` may report as a
  function of the namespace and the tree.

Go maps are unordered. The model handles their iteration in three ways:

- The namespace is a sequence in an arbitrary order, and validation is proved not to depend on
  that order (`ValidateIgnoresOrder`).
- The trees of one source are a sequence with distinct names, in the order the parser's map
  (load.go:200) is iterated. The model takes that order as part of the parser's answer. It matters
  only through the empty-tree rule of `AddParseTree`, which looks at the previously added name.
- Loops over the registry and over function maps leave the order open with `:|`.

The set's `*Loader` pointer is not a field. `Create`, `MakeView` and `ViewMust` take the loader
state and return it updated, because a build writes to the loader's tree cache.

The model follows the code where the package's documentation says otherwise:

- `Set.View` is documented to return a nil view on error. The code returns a view with no
  template, and `MakeView` does the same.
- The tree cache is read (load.go:189-191), but the lookup result is always overwritten by a fresh
  parse (load.go:195), so every build re-parses every source.
- Validation checks that required fragments are defined. It does not check for cycles.
- Only the first `.html` of a relative path is removed (`ViewNameRemovesFirstOccurrence`), so a
  file `x.html/page.html` is registered as `x/page.html`.

## Model

| member | source | states |
|---|---|---|
| Parse.RequiredTemplates | parse.go:61-80 | a nil list requires nothing |
| Parse.RequiredIffReaches | parse.go:61-80 | a name is collected iff a `{{template}}` call for it is reachable through lists, `if` and `range` (but not `with`) branches |
| Parse.RequiredSeqIffWithin | parse.go:66-78 | the same equivalence for a node sequence |
| Parse.RequiredOfIffWithin | parse.go:67-77 | the same equivalence for one node |
| Parse.RequiredConcat | parse.go:66-78 | the names required by two node runs are those of the first followed by those of the second |
| Parse.OpaqueNodeContributesNothing | parse.go:66-78 | `with`, text, comment and other action nodes add no required names |
| Parse.Validate | parse.go:32-59 | fails with the missing-root error iff no root is defined; passes iff the namespace is complete; otherwise lists each undefined required name as often as it is invoked, and never an empty list |
| Parse.UndefinedCount | parse.go:47-52 | the missing list holds each undefined name as many times as it is required |
| Parse.NeededMembers | parse.go:39-45 | a name is needed iff some fragment's tree requires it |
| Parse.DefinedNames | parse.go:39-43 | the defined names are the namespace's names other than the root |
| Parse.NeededConcat | parse.go:39-45 | the needed names of two namespace parts are concatenated |
| Parse.NeededPermutation | parse.go:39-45 | reordering the fragments permutes the needed names |
| Parse.ValidateIgnoresOrder | parse.go:32-59 | validation gives the same verdict and the same multiset of missing names in any iteration order |
| Parse.AddParseTree | parse.go:18 | fails iff the library refuses the tree; otherwise adds the tree's name and keeps names unique; the name then finds the new tree, except that an empty tree added on a receiver of its own name leaves the namespace unchanged; every other fragment stays |
| Parse.Lookup | parse.go:33 | finds the fragment under a name, if any |
| Parse.Install | parse.go:18 | defines exactly one more name at most, keeping names unique |
| Parse.InstallLookup | parse.go:18 | after installing, the tree's name finds the tree and every other name finds what it found before |
| Parse.InstallAppends | parse.go:18 | a tree with a new name is appended at the end |
| Parse.InstallReplaces | parse.go:18 | a tree with an existing name replaces that fragment in place |
| Parse.LookupCons | parse.go:33 | lookup in a namespace with a first fragment finds it when the names match, else looks in the rest |
| Parse.NamesCons | parse.go:16-22 | prepending a tree adds its name, and the names stay unique iff the new name is fresh |
| Parse.AddAll | parse.go:16-22 | a successful loop defines exactly the initial names plus those of the trees; any failure is an add failure |
| Parse.AddAllConcat | parse.go:16-22 | adding a concatenation adds the first part and then the second, starting from the first part's last tree |
| Parse.AddAllFirst | parse.go:16-22 | a successful loop starts with a successful add of its first tree and continues from there, with that tree as receiver |
| Parse.EmptyRedefinitionAfterOtherNameReplaces | parse.go:16-22 | a tree added after `x` and then a fragment of another name replaces `x`, even when it is empty |
| Parse.EmptyRedefinitionAfterSameNameIsIgnored | parse.go:16-22 | an empty tree added right after `x` under `x`'s name leaves the loop's result as it was after `x` |
| Parse.EmptyRedefinitionAfterSameNameLeavesBuild | parse.go:14-30 | whatever precedes it, such a pair builds the same template, or the same error, as `x` alone |
| Parse.CreateTemplate | parse.go:14-30 | succeeds iff every add succeeds and the resulting namespace is complete, returning that namespace, which holds the dummy plus every tree's name; a failed add returns the add loop's own error before validation runs; otherwise a failure is exactly the error validation reports (the missing root, or the missing templates with their multiplicities); the missing-root error happens iff every add succeeds and no tree is a root |
| Strings.IndexFrom | load.go:88 | finds the first occurrence of a pattern at or after a position, or reports none |
| Strings.Index | load.go:88 | finds the first occurrence of a pattern |
| Strings.ReplaceFirst | load.go:88 | replaces only the first occurrence; without an occurrence the string is unchanged |
| Strings.ReplaceAllChar | load.go:85-87 | every occurrence of one character becomes the other and nothing else changes |
| Load.ViewNameStripsExtension | load.go:81-88 | a path whose only `.html` is its extension is registered under the path without it |
| Load.ViewNameUsesSlashes | load.go:85-87 | on Windows a view name never contains a backslash |
| Load.ViewNameRemovesFirstOccurrence | load.go:88 | the name is the path with its first `.html` removed and whatever follows kept, even when that occurrence is inside a directory name |
| Load.WalkDir | load.go:70-97 | the walk keeps the registry keyed by name and succeeds iff no entry is an error |
| Load.LastRegistration | load.go:70-93 | finds an entry of the walk that registers the name and has no registering entry after it, and finds one iff some entry registers the name |
| Load.WalkDirContents | load.go:70-93 | after a walk, each name holds the source of the last entry registering it, or its previous value |
| Load.LastRegistrationCons | load.go:70-93 | the last registration in a walk is found in the tail, else at the head |
| Load.WalkDirOverlays | load.go:70-97 | walking into a registry overlays that directory's own entries on it |
| Load.ScanDirs | load.go:63-98 | scanning directories keeps the registry keyed by name |
| Load.Scan | load.go:57-101 | the scanned registry is keyed by name |
| Load.ScanDirsIsOverlay | load.go:63-98 | a successful scan found every directory and equals the overlay of the directories' own entries, earlier directories last |
| Load.OverlayPriority | load.go:61-98 | a name is registered iff some directory has it, and it comes from the earliest such directory |
| Load.ScanPriority | load.go:57-101 | on success, a name is registered iff some configured directory has it, and the earliest such directory wins |
| Load.ScanFailsOnMissingDirectory | load.go:66-68 | a configured directory that does not exist makes the scan fail |
| Load.ScanDirsFails | load.go:63-68 | any missing directory among those scanned makes the scan fail |
| Load.NewLoader | load.go:51-55 | the loader is returned with an empty tree cache and the scan's registry, keyed by name, together with the scan's error if any |
| Load.AddSource | load.go:120-126 | replaces the entry under the source's name and leaves every other entry alone |
| Load.AddFile | load.go:110-112 | registers a file-backed source under its name; nothing else changes |
| Load.AddText | load.go:116-118 | registers an inline source with no path under its name; nothing else changes |
| Load.Sources | load.go:129-140 | returns every registered source exactly once, in some order |
| Load.Resolve | load.go:161-168 | an entry with a path must name a registered source, and is read from that source's path; an entry without one is read from the empty path |
| Load.ReadFile | load.go:170-173 | reading succeeds iff the path is not empty and names a file |
| Load.LoadOne | load.go:160-175 | loads iff the entry has a path naming a registered source whose own path is non-empty and readable; a loaded entry keeps its name and path and takes that file's text; an unregistered path fails with not-found |
| Load.LoadSources | load.go:159-177 | loading succeeds iff every entry loads, keeping order and names; a failure is the first failing entry's error |
| Load.UnresolvedEntryFailsLoad | load.go:162-167 | an entry whose path is not registered makes loading fail, at the first failing entry |
| Load.InlineSourceNeverLoads | load.go:162-173 | an entry without a path, or naming an inline source, fails to read the empty path |
| Load.WithoutRoot | load.go:200-205 | drops exactly the root-named trees and keeps the rest |
| Load.Admitted | load.go:200-214 | a source's admitted trees contain the root iff the root is its only tree |
| Load.ContributionWhole | load.go:200-205 | a source with one tree contributes it whatever its name |
| Load.ContributionWithoutRoot | load.go:200-205 | a source with several trees contributes all of them but the root |
| Load.AdmitFrom | load.go:200-214 | the inner loop fails with a redefinition iff the source's sole tree is a root and a root was already admitted; otherwise it appends the source's admitted trees |
| Load.AdmitFromNames | load.go:212-213 | the inner loop records exactly the names of the trees it admits |
| Load.ParseEach | load.go:184-220 | with reloading on the cache is untouched; no cache entry is ever dropped; a success means every source parsed, and with reloading off every path-bearing entry has a cache entry |
| Load.ParseEachIgnoresCache | load.go:187-198 | the parse outcome does not depend on what the cache held |
| Load.ParseEachKeeps | load.go:217-219 | a path that no source is read from keeps the trees the cache held for it, whatever the loop's outcome |
| Load.ParseEachCaches | load.go:217-219 | with reloading off, after a successful loop each path holds the trees that the last source read from it parsed to |
| Load.ParseEachAdmits | load.go:184-220 | when every source parses and at most one root is admitted, the loop yields each source's admitted trees in order |
| Load.ParseEachRedefines | load.go:200-210 | when every source parses and two sources define only a root, the loop fails with a redefinition |
| Load.ParseEachSyntaxError | load.go:195-198 | when the sources before it parse, with at most one root-only source among them, the first source that does not parse ends the loop with its name and syntax error |
| Load.ParseEachTrees | load.go:184-222 | a successful loop returns exactly the admitted trees of all sources |
| Load.ParseEachOutcome | load.go:184-222 | once every source parses, the loop returns the admitted trees of all sources, unless more than one source defines only a root, when it fails with the redefinition error |
| Load.ParseSources | load.go:179-223 | once every source parses: past one root-only source the result is the redefinition error, otherwise it is `createTemplate` of the admitted trees; it succeeds iff every source parses, at most one defines only a root and those trees compose; a success is complete and holds the dummy plus every admitted name; registry and configuration are untouched; the loader ends with the cache the loop wrote |
| Load.ParseSourcesSyntaxError | load.go:184-198 | the same for `parseSources`: its result is the first unparsable source's syntax error |
| Load.BuildTemplate | load.go:142-157 | a load failure is returned with the loader unchanged before anything is parsed; after a successful load the outcome and the loader are those of parsing the loaded sources; a success is a complete namespace with a root |
| Load.BuildSucceeds | load.go:142-157 | a build succeeds iff every entry loads, every source parses, at most one source defines only a root and the admitted trees compose into a valid template, which is then the result |
| Load.RootOnlySourceBuilds | load.go:142-157 | a one-entry set whose source parses to a lone root invoking nothing builds, holding the placeholder and that root |
| Load.RootOnlyTemplate | parse.go:14-30 | a lone root that invokes nothing and that the library accepts composes into the placeholder followed by the root |
| Load.UnresolvedEntryFailsBuild | load.go:146-149 | an unregistered entry fails the build whatever the parser would say, and leaves the loader unchanged |
| Load.BuildRootRules | load.go:179-223 | two root-only sources fail with a redefinition; with none, and no refused tree, the build fails for a missing root |
| Load.AdmittedAllRoot | load.go:200-214 | the admitted trees contain a root iff some source defined only a root |
| Load.NamesConcat | load.go:184-214 | the names of concatenated trees are the union of their names |
| Sets.NewSet | set.go:11-17 | a new set has no sources and binds exactly the five default helpers |
| Sets.Add | set.go:21-27 | keeps the existing entries and appends one path-only entry per file, in argument order; functions unchanged |
| Sets.AddConcat | set.go:21-27 | adding two file lists one after the other equals adding their concatenation |
| Sets.SetEntry | set.go:52-56 | keeps the existing entries and appends exactly one, carrying the given name and path and no text; functions unchanged |
| Sets.UnnamedSetIsAdd | set.go:52-56 | `Set` with an empty name is `Add` of that file |
| Sets.AddSets | set.go:37-48 | sources are the receiver's followed by every set's, set by set; a function name is bound iff the receiver or some set binds it, and it is bound to the last set's function, else to the receiver's |
| Sets.AddSetsStep | set.go:39-46 | one iteration of the set loop advances the reference definitions by the first set |
| Sets.SourcesOfFront | set.go:39-42 | the sources of a set list are the first set's followed by the rest's |
| Sets.WinnerFront | set.go:43-45 | the function a name ends with is unchanged by merging the first set into the base first |
| Sets.AddSetsConcat | set.go:37-48 | adding two lists of sets in two calls equals adding their concatenation in one |
| Sets.AddSet | set.go:31-33 | appends the set's sources, and its functions win over the receiver's |
| Sets.AddFunc | set.go:60-64 | binds the name to the function, overwriting any binding, and leaves other names and the sources alone |
| Sets.AddFuncs | set.go:69-75 | in any key order, binds every entry of the map, keeps the receiver's other bindings and adds no others |
| Sets.AddFuncsSingle | set.go:60-75 | adding a one-entry map is adding that single function |
| Sets.CopyFuncs | set.go:78-84 | the copy has the same bindings |
| Sets.CopySources | set.go:87-93 | the copy has the same entries in the same order |
| Sets.Create | set.go:118-130 | with a template and reloading off nothing changes; otherwise it returns the build's loader, succeeds iff the build does and then installs the built template, and on failure returns the build's error and keeps the old view; a view's validity is preserved |
| Sets.ReloadIgnoresCurrentTemplate | set.go:118-130 | with reloading on, a rebuild's outcome does not depend on the current template, and a failed rebuild keeps it |
| Sets.MakeView | set.go:97-101 | errs iff the build errs, with the build's error, still returning a view but with no template; a success holds the built template, which has a root; the loader is the build's |
| Sets.ViewMust | set.go:105-111 | panics iff `View` returns an error, with that error; otherwise returns exactly the view `View` built, which holds a template; either way the loader is the one the build left behind |
| Sets.CachedViewIgnoresFiles | set.go:118-121 | a built view with reloading off is served unchanged whatever the files and the parser now say |
| Sets.UnregisteredFileFailsView | set.go:118-126 | adding a file the loader never registered makes `View` fail and `ViewMust` panic |

## Left out

- **Template library internals.** The internals of `html/template` and `text/template/parse` are
  not modelled: lexing, parsing, escaping, execution and the exact conditions under which
  `AddParseTree` fails. The parser and the add failures are inputs.
- Parse.AddParseTree: the rule for an empty tree is an assumption about html/template, whose
  source is not part of this model. The assumed behaviour is that html/template records the tree
  of the template `AddParseTree` returns. That tree is the old fragment only when the empty tree is
  added on a receiver of its own name; otherwise the empty tree replaces the fragment.
- **Environment.** The file-system calls are inputs: `os.Stat`, `filepath.Walk`, `filepath.Rel`,
  `ioutil.ReadFile` and `os.PathSeparator`. A walk entry carries its relative path, so a failing
  `filepath.Rel` is not modelled.
- **Mutex.** The loader's mutex is not modelled. Every operation is atomic in the model.
- **Rendering.** `View.Write` and `View.HTML` (view.go) run `create` and then execute the template.
  Only `create` is modelled; execution is library work.
- **Helpers.** The behaviour of the helpers in funcs.go (`raw`, `nl2br`, `runSet`, `runView`,
  `runTemplate`) is not modelled. Only their names in the default map are.
- **Pointer sharing.** `clone` (set.go:113-116) is a shallow copy, and the model copies by value
  instead. The program's sharing has these effects, none of which the model has:
  - `AddFunc`, `AddFuncs` and `AddSets` (set.go:44,62,72) write into the funcs map the receiver
    shares, so the receiver and every set cloned from it see the new bindings too.
  - `Add`, `Set` and `AddSets` append to a slice whose backing array the receiver shares
    (set.go:24,41,54). When that array has spare capacity, two sets derived from the same receiver
    write the same slot, and the later append overwrites the earlier set's last entry.
  - `loadSources` writes `Content` into the shared source entries (load.go:174). In the model the
    loaded text is returned with the sources and does not reach other sets.
- Sets.AddSets: it appends each source as its own entry, as the doc comment describes. Before
  Go 1.22, `&src` takes the address of the one range variable, so every appended entry of a call
  would alias the last source copied.
- **Map order.** The order of Go map iteration is left open. Properties that depend on it are
  stated up to permutation.
- **Error text.** Only the error kind and its payload are modelled, not the message text.
  `fmt.Errorf`'s `%q` quoting is dropped.
- Load.ParseEach: the lookup of cached trees is not modelled, because its result is always
  overwritten by a fresh parse.
- Parse.CreateTemplate: the panic of `Funcs` (parse.go:15) on a helper name that is not a valid
  identifier is not modelled. Helper names are not checked, so a set that binds one, for
  instance after `AddFunc(s, "a-b", f)`, builds in the model where the program panics.
- Load.ParseEachCaches: states what the cache holds only after a successful loop. After a failure,
  the entries written for the sources before the failing one stay, and only `ParseEachKeeps`
  speaks of that cache.

=== FILE: errors.dfy ===
/** Failure-carrying values shared by every part of the model, and the
    errors the template loader reports. Each `Error` constructor stands for
    one error the Go package returns; the message it would print is given
    beside it. */
module Errors {

  datatype Option<+T> = None | Some(value: T)

  /** The errors of the loader, the set builder and the validator. */
  datatype Error =
      // the `os.Stat` failure for a configured directory (load.go:66-68)
    | DirectoryNotFound(dir: string)
      // an error handed to the walk callback by `filepath.Walk` (load.go:71-73)
    | WalkFailed(path: string)
      // "template %q not found": a set entry names no registry entry (load.go:166)
    | TemplateNotFound(name: string)
      // `ioutil.ReadFile` failed on the resolved path (load.go:170-173)
    | ReadFailed(path: string)
      // `parse.Parse` rejected a source, e.g. bad syntax or an undefined function (load.go:195-198)
    | ParseFailed(name: string, message: string)
      // "html/template: redefinition of root template" (load.go:208-210)
    | RootRedefined
      // `AddParseTree` refused a tree (parse.go:18-21)
    | AddTreeFailed(message: string)
      // "html/template: missing root template" (parse.go:33-35)
    | MissingRoot
      // "html/template: missing template(s) %q" (parse.go:54-56)
    | MissingTemplates(names: seq<string>)

  /** A value or the error that prevented computing it. */
  datatype Result<+T> = Ok(value: T) | Err(error: Error) {

    predicate IsFailure() {
      Err?
    }

    function PropagateFailure<U>(): Result<U>
      requires Err?
    {
      Err(error)
    }

    function Extract(): T
      requires Ok?
    {
      value
    }
  }

  /** Success or the error, for steps that compute nothing (Go's `error`). */
  datatype Outcome = Pass | Fail(error: Error) {

    predicate IsFailure() {
      Fail?
    }

    function PropagateFailure<U>(): Result<U>
      requires Fail?
    {
      Err(error)
    }
  }
}

=== FILE: funcs.dfy ===
/** Helper functions bound into template sets. Their behaviour (escaping,
    nested rendering) is not part of this model; only their identity is,
    since a set's function map decides which names the parser accepts. */
module Funcs {

  /** A helper function, identified rather than executed: the five
      built-in helpers and the callers' own functions. */
  datatype Func = Raw | Nl2br | RunSet | RunView | RunTemplate | Custom(id: nat)

  /** The map every new set starts with (funcs.go `createFuncMap`). */
  const DefaultFuncs: map<string, Func> :=
    map["runSet" := RunSet, "runView" := RunView, "runTemplate" := RunTemplate,
        "raw" := Raw, "nl2br" := Nl2br]
}

=== FILE: load.dfy ===
/** The loader: the registry of template sources built by scanning the
    configured directories, explicit registrations, resolution of a set's
    entries against the registry, and the admission of parsed trees into
    one composed template. The file system and the template parser are
    inputs (`FileSystem`, `Library`). */
module Load {

  import opened Errors
  import opened Strings
  import opened Trees
  import opened Funcs
  import opened Parse

  /** A template source: its text (filled in at build time), the path of
      its file, and its name. */
  datatype Source = Source(content: string, filePath: string, name: string)

  /** The loader's name-to-source map. */
  type Registry = map<string, Source>

  /** Every entry is stored under its own name. */
  predicate KeyedByName(reg: Registry) {
    forall k :: k in reg ==> reg[k].name == k
  }

  /** The loader configuration; `directories` are in descending priority. */
  datatype Config = Config(directories: seq<string>, autoReload: bool, delimLeft: string, delimRight: string)

  /** One call of the `filepath.Walk` callback: a visited file or directory
      (its full path, its path relative to the walked directory, its base
      name and whether it is a directory), or an error handed to the
      callback for `path`. */
  datatype WalkEntry = Visit(path: string, rel: string, base: string, isDir: bool) | Broken(path: string)

  /** The file system as the loader sees it: the entries each existing
      directory walks through, in walk order; the readable files and their
      contents; and whether the path separator is the Windows backslash. */
  datatype FileSystem = FileSystem(walks: map<string, seq<WalkEntry>>, files: map<string, string>, windows: bool)

  /** What `parse.Parse` is asked to parse. */
  datatype ParseRequest = ParseRequest(name: string, content: string, delimLeft: string, delimRight: string,
                                       funcs: map<string, Func>)

  /** What `parse.Parse` answers: the trees the text defines, or an error. */
  datatype Parsed = Trees(trees: TreeSet) | SyntaxError(message: string)

  /** The template library: its parser and the failures its
      `AddParseTree` may report. */
  datatype Library = Library(parse: ParseRequest -> Parsed, reject: (Namespace, Tree) -> Option<string>)

  /** A loader: configuration, registry, and the tree cache keyed by file path. */
  datatype Loader = Loader(conf: Config, sources: Registry, treeCache: map<string, TreeSet>)

  const Extension: string := ".html"

  // ---------------------------------------------------------------------
  // scan

  /** The walk filter: a file, not a directory, whose base name does not
      start with `_` and ends with the template extension. */
  predicate Qualifies(base: string, isDir: bool) {
    !isDir && !HasPrefix(base, "_") && HasSuffix(base, Extension)
  }

  /** The registered name of a file: its relative path with backslashes
      turned into slashes on Windows and the first `.html` removed. */
  function ViewName(rel: string, windows: bool): string {
    var slashed := if windows then ReplaceAllChar(rel, '\\', '/') else rel;
    ReplaceFirst(slashed, Extension, "")
  }

  /** A path whose only `.html` is its extension is registered under the
      path without the extension (with slashes on Windows). */
  lemma ViewNameStripsExtension(rel: string, windows: bool, stem: string)
    requires (if windows then ReplaceAllChar(rel, '\\', '/') else rel) == stem + Extension
    requires forall j :: 0 <= j < |stem| ==> !OccursAt(stem + Extension, Extension, j)
    ensures ViewName(rel, windows) == stem
  {
    var slashed := stem + Extension;
    assert OccursAt(slashed, Extension, |stem|);
    assert slashed[..|stem|] == stem;
  }

  /** On Windows no registered name contains a backslash. */
  lemma {:induction false} ViewNameUsesSlashes(rel: string)
    ensures '\\' !in ViewName(rel, true)
  {
    var slashed := ReplaceAllChar(rel, '\\', '/');
    assert forall m :: 0 <= m < |slashed| ==> slashed[m] != '\\';
    ReplaceFirstChars(slashed, Extension, "", '\\');
  }

  /** Only the first `.html` is removed, whatever follows it, even when it
      belongs to a directory name: `x.html/page.html` is registered as
      `x/page.html`. */
  lemma ViewNameRemovesFirstOccurrence(rel: string, windows: bool, dir: string, rest: string)
    requires (if windows then ReplaceAllChar(rel, '\\', '/') else rel) == dir + Extension + rest
    requires Index(dir + Extension, Extension) == Some(|dir|)
    ensures ViewName(rel, windows) == dir + rest
  {
    ReplaceFirstAfter(dir, Extension, rest, "");
  }

  /** The registry state during a scan, and the error that ended it. */
  datatype ScanState = ScanState(reg: Registry, err: Option<Error>)

  /** True iff walking entry `e` registers a source under `name`. */
  predicate Registers(e: WalkEntry, windows: bool, name: string) {
    e.Visit? && Qualifies(e.base, e.isDir) && ViewName(e.rel, windows) == name
  }

  /** The walk callback applied to one directory's entries in order. */
  function WalkDir(entries: seq<WalkEntry>, windows: bool, reg: Registry): (r: ScanState)
    ensures KeyedByName(reg) ==> KeyedByName(r.reg)
    ensures r.err.None? <==> forall i :: 0 <= i < |entries| ==> entries[i].Visit?
    decreases |entries|
  {
    if |entries| == 0 then ScanState(reg, None)
    else
      match entries[0]
      case Broken(path) => ScanState(reg, Some(WalkFailed(path)))
      case Visit(path, rel, base, isDir) =>
        var next := if Qualifies(base, isDir) then
                      var name := ViewName(rel, windows);
                      reg[name := Source("", path, name)]
                    else reg;
        var r := WalkDir(entries[1..], windows, next);
        assert forall i :: 1 <= i < |entries| ==> entries[i] == entries[1..][i - 1];
        r
  }

  /** The last entry of a walk that registers `name`, if any. */
  function LastRegistration(entries: seq<WalkEntry>, windows: bool, name: string): (r: Option<WalkEntry>)
    ensures r.Some? <==> exists i :: 0 <= i < |entries| && Registers(entries[i], windows, name)
    ensures r.Some? ==> Registers(r.value, windows, name)
    ensures r.Some? ==> exists i :: 0 <= i < |entries| && entries[i] == r.value &&
                          forall j :: i < j < |entries| ==> !Registers(entries[j], windows, name)
    decreases |entries|
  {
    if |entries| == 0 then None
    else
      var last := entries[|entries| - 1];
      var init := entries[..|entries| - 1];
      assert forall i :: 0 <= i < |init| ==> init[i] == entries[i];
      if Registers(last, windows, name) then
        assert entries[|entries| - 1] == last;
        Some(last)
      else
        var r := LastRegistration(init, windows, name);
        LastRegistrationStep(entries, init, windows, name, r);
        r
  }

  /** An entry with no later registering entry among all but the last
      keeps that property when the last entry does not register. */
  lemma LastRegistrationStep(entries: seq<WalkEntry>, init: seq<WalkEntry>, windows: bool, name: string,
                             r: Option<WalkEntry>)
    requires |entries| > 0 && init == entries[..|entries| - 1]
    requires !Registers(entries[|entries| - 1], windows, name)
    requires r.Some? ==> exists i :: 0 <= i < |init| && init[i] == r.value &&
                            forall j :: i < j < |init| ==> !Registers(init[j], windows, name)
    ensures r.Some? ==> exists i :: 0 <= i < |entries| && entries[i] == r.value &&
                          forall j :: i < j < |entries| ==> !Registers(entries[j], windows, name)
  {
    if r.Some? {
      var i :| 0 <= i < |init| && init[i] == r.value &&
               forall j :: i < j < |init| ==> !Registers(init[j], windows, name);
      assert entries[i] == r.value;
      forall j | i < j < |entries| ensures !Registers(entries[j], windows, name) {
        if j < |entries| - 1 {
          assert init[j] == entries[j];
        }
      }
    }
  }

  function Get(reg: Registry, name: string): Option<Source> {
    if name in reg then Some(reg[name]) else None
  }

  /** A completed walk holds, for every name, the source of the last entry
      that registered it, and otherwise whatever the registry held. */
  lemma {:induction false} WalkDirContents(entries: seq<WalkEntry>, windows: bool, reg: Registry, name: string)
    requires WalkDir(entries, windows, reg).err.None?
    ensures Get(WalkDir(entries, windows, reg).reg, name) ==
            match LastRegistration(entries, windows, name)
            case Some(e) => Some(Source("", e.path, name))
            case None => Get(reg, name)
    decreases |entries|
  {
    if |entries| > 0 {
      var e := entries[0];
      var next := if Qualifies(e.base, e.isDir) then
                    reg[ViewName(e.rel, windows) := Source("", e.path, ViewName(e.rel, windows))]
                  else reg;
      assert WalkDir(entries, windows, reg) == WalkDir(entries[1..], windows, next);
      WalkDirContents(entries[1..], windows, next, name);
      LastRegistrationCons(entries, windows, name);
    }
  }

  lemma {:induction false} LastRegistrationCons(entries: seq<WalkEntry>, windows: bool, name: string)
    requires |entries| > 0
    ensures LastRegistration(entries, windows, name) ==
            if LastRegistration(entries[1..], windows, name).Some? then LastRegistration(entries[1..], windows, name)
            else if Registers(entries[0], windows, name) then Some(entries[0])
            else None
    decreases |entries|
  {
    if |entries| > 1 {
      var init := entries[..|entries| - 1];
      assert init[1..] == entries[1..][..|entries[1..]| - 1];
      assert entries[1..][|entries[1..]| - 1] == entries[|entries| - 1];
      assert init[0] == entries[0];
      LastRegistrationCons(init, windows, name);
    }
  }

  /** The sources one directory contributes on its own. */
  function DirEntries(dir: string, fs: FileSystem): Registry {
    if dir in fs.walks then WalkDir(fs.walks[dir], fs.windows, map[]).reg else map[]
  }

  /** Walking a directory into a registry overlays that directory's own
      sources on the registry. */
  lemma WalkDirOverlays(entries: seq<WalkEntry>, windows: bool, reg: Registry)
    requires WalkDir(entries, windows, reg).err.None?
    ensures WalkDir(entries, windows, map[]).err.None?
    ensures WalkDir(entries, windows, reg).reg == reg + WalkDir(entries, windows, map[]).reg
  {
    var a := WalkDir(entries, windows, reg).reg;
    var b := reg + WalkDir(entries, windows, map[]).reg;
    forall name ensures Get(a, name) == Get(b, name) {
      WalkDirContents(entries, windows, reg, name);
      WalkDirContents(entries, windows, map[], name);
    }
    forall name | name in a ensures name in b && a[name] == b[name] {
      assert Get(a, name) == Get(b, name);
    }
    forall name | name in b ensures name in a {
      assert Get(a, name) == Get(b, name);
    }
  }

  /** The directories processed from the last to the first. */
  function ScanDirs(dirs: seq<string>, fs: FileSystem, reg: Registry): (r: ScanState)
    ensures KeyedByName(reg) ==> KeyedByName(r.reg)
    decreases |dirs|
  {
    if |dirs| == 0 then ScanState(reg, None)
    else
      var dir := dirs[|dirs| - 1];
      if dir !in fs.walks then ScanState(reg, Some(DirectoryNotFound(dir)))
      else
        var walked := WalkDir(fs.walks[dir], fs.windows, reg);
        if walked.err.Some? then walked else ScanDirs(dirs[..|dirs| - 1], fs, walked.reg)
  }

  /** `scan`: starts from an empty registry. */
  function Scan(conf: Config, fs: FileSystem): (r: ScanState)
    ensures KeyedByName(r.reg)
  {
    ScanDirs(conf.directories, fs, map[])
  }

  /** Reference definition of the priority rule: each directory's own
      sources, with lower-index directories overriding higher-index ones. */
  function Overlay(dirs: seq<string>, fs: FileSystem): Registry
    decreases |dirs|
  {
    if |dirs| == 0 then map[]
    else DirEntries(dirs[|dirs| - 1], fs) + Overlay(dirs[..|dirs| - 1], fs)
  }

  lemma {:induction false} ScanDirsIsOverlay(dirs: seq<string>, fs: FileSystem, reg: Registry)
    requires ScanDirs(dirs, fs, reg).err.None?
    ensures forall j :: 0 <= j < |dirs| ==> dirs[j] in fs.walks
    ensures ScanDirs(dirs, fs, reg).reg == reg + Overlay(dirs, fs)
    decreases |dirs|
  {
    if |dirs| > 0 {
      var dir := dirs[|dirs| - 1];
      var init := dirs[..|dirs| - 1];
      assert dir in fs.walks;
      var walked := WalkDir(fs.walks[dir], fs.windows, reg);
      assert walked.err.None?;
      assert ScanDirs(dirs, fs, reg) == ScanDirs(init, fs, walked.reg);
      WalkDirOverlays(fs.walks[dir], fs.windows, reg);
      assert walked.reg == reg + DirEntries(dir, fs);
      ScanDirsIsOverlay(init, fs, walked.reg);
      assert Overlay(dirs, fs) == DirEntries(dir, fs) + Overlay(init, fs);
      UnionAssociates(reg, DirEntries(dir, fs), Overlay(init, fs));
      forall j | 0 <= j < |dirs| ensures dirs[j] in fs.walks {
        if j < |init| { assert init[j] == dirs[j]; }
      }
    }
  }

  /** Stated apart so that callers get the fact without the cost of proving it in their context. */
  lemma UnionAssociates(a: Registry, b: Registry, c: Registry)
    ensures (a + b) + c == a + (b + c)
  {
  }

  /** In the overlay a name comes from the lowest-index directory that has it. */
  lemma {:induction false} OverlayPriority(dirs: seq<string>, fs: FileSystem, name: string)
    ensures name in Overlay(dirs, fs) <==> exists j :: 0 <= j < |dirs| && name in DirEntries(dirs[j], fs)
    ensures forall j :: 0 <= j < |dirs| && name in DirEntries(dirs[j], fs) &&
                        (forall k :: 0 <= k < j ==> name !in DirEntries(dirs[k], fs)) ==>
                        Overlay(dirs, fs)[name] == DirEntries(dirs[j], fs)[name]
    decreases |dirs|
  {
    if |dirs| > 0 {
      var init := dirs[..|dirs| - 1];
      OverlayPriority(init, fs, name);
      assert forall j :: 0 <= j < |init| ==> init[j] == dirs[j];
    }
  }

  /** A successful scan registers exactly the names some directory
      contributes, each with the entry of the highest-priority (lowest
      index) directory that contributes it. */
  lemma ScanPriority(conf: Config, fs: FileSystem, name: string)
    requires Scan(conf, fs).err.None?
    ensures forall j :: 0 <= j < |conf.directories| ==> conf.directories[j] in fs.walks
    ensures name in Scan(conf, fs).reg <==>
            exists j :: 0 <= j < |conf.directories| && name in DirEntries(conf.directories[j], fs)
    ensures forall j :: 0 <= j < |conf.directories| && name in DirEntries(conf.directories[j], fs) &&
                        (forall k :: 0 <= k < j ==> name !in DirEntries(conf.directories[k], fs)) ==>
                        Scan(conf, fs).reg[name] == DirEntries(conf.directories[j], fs)[name]
  {
    ScanDirsIsOverlay(conf.directories, fs, map[]);
    assert map[] + Overlay(conf.directories, fs) == Overlay(conf.directories, fs);
    OverlayPriority(conf.directories, fs, name);
  }

  /** A configured directory that does not exist makes the scan fail. */
  lemma ScanFailsOnMissingDirectory(conf: Config, fs: FileSystem, j: int)
    requires 0 <= j < |conf.directories| && conf.directories[j] !in fs.walks
    ensures Scan(conf, fs).err.Some?
  {
    ScanDirsFails(conf.directories, fs, map[], j);
  }

  lemma {:induction false} ScanDirsFails(dirs: seq<string>, fs: FileSystem, reg: Registry, j: int)
    requires 0 <= j < |dirs| && dirs[j] !in fs.walks
    ensures ScanDirs(dirs, fs, reg).err.Some?
    decreases |dirs|
  {
    var dir := dirs[|dirs| - 1];
    if j < |dirs| - 1 && dir in fs.walks {
      var walked := WalkDir(fs.walks[dir], fs.windows, reg);
      if walked.err.None? {
        ScanDirsFails(dirs[..|dirs| - 1], fs, walked.reg, j);
      }
    }
  }

  /** `NewLoader`: the loader is returned even when the scan fails, holding
      what was registered before the failure. */
  function NewLoader(conf: Config, fs: FileSystem): (r: (Loader, Option<Error>))
    ensures r.0.conf == conf && r.0.treeCache == map[]
    ensures r.0.sources == Scan(conf, fs).reg
    ensures KeyedByName(r.0.sources)
    ensures r.1 == Scan(conf, fs).err
  {
    var s := Scan(conf, fs);
    (Loader(conf, s.reg, map[]), s.err)
  }

  // ---------------------------------------------------------------------
  // explicit registration

  /** `addSource`: the entry for the source's name is replaced. */
  function AddSource(l: Loader, src: Source): (r: Loader)
    ensures r.conf == l.conf && r.treeCache == l.treeCache
    ensures r.sources.Keys == l.sources.Keys + {src.name}
    ensures r.sources[src.name] == src
    ensures forall k :: k in l.sources && k != src.name ==> r.sources[k] == l.sources[k]
    ensures KeyedByName(l.sources) ==> KeyedByName(r.sources)
  {
    l.(sources := l.sources[src.name := src])
  }

  /** `AddFile`: registers a file-backed source under `name`. */
  function AddFile(l: Loader, name: string, filePath: string): (r: Loader)
    ensures r.sources.Keys == l.sources.Keys + {name}
    ensures r.sources[name] == Source("", filePath, name)
    ensures forall k :: k in l.sources && k != name ==> r.sources[k] == l.sources[k]
    ensures r.conf == l.conf && r.treeCache == l.treeCache
  {
    AddSource(l, Source("", filePath, name))
  }

  /** `AddText`: registers an inline source under `name`; it has no path. */
  function AddText(l: Loader, name: string, content: string): (r: Loader)
    ensures r.sources.Keys == l.sources.Keys + {name}
    ensures r.sources[name] == Source(content, "", name)
    ensures forall k :: k in l.sources && k != name ==> r.sources[k] == l.sources[k]
    ensures r.conf == l.conf && r.treeCache == l.treeCache
  {
    AddSource(l, Source(content, "", name))
  }

  /** `Sources`: every registered source once, in map order. */
  method Sources(l: Loader) returns (r: seq<Source>)
    ensures |r| == |l.sources|
    ensures forall s :: s in r <==> s in l.sources.Values
    ensures KeyedByName(l.sources) ==> forall i, j :: 0 <= i < j < |r| ==> r[i] != r[j]
  {
    var rest := l.sources.Keys;
    r := [];
    while rest != {}
      invariant Gathered(l, r, rest)
      decreases |rest|
    {
      var k :| k in rest;
      GatherOne(l, r, rest, k);
      r := r + [l.sources[k]];
      rest := rest - {k};
    }
  }

  /** What `Sources` holds while the keys in `rest` remain to be visited. */
  predicate Gathered(l: Loader, r: seq<Source>, rest: set<string>) {
    && rest <= l.sources.Keys
    && |r| + |rest| == |l.sources|
    && (forall s :: s in r ==> s in l.sources.Values)
    && (forall k :: k in l.sources && k !in rest ==> l.sources[k] in r)
    && (KeyedByName(l.sources) ==> forall i :: 0 <= i < |r| ==> r[i].name in l.sources && r[i].name !in rest)
    && (KeyedByName(l.sources) ==> forall i, j :: 0 <= i < j < |r| ==> r[i] != r[j])
  }

  /** Visiting one more key keeps `Gathered`. */
  lemma GatherOne(l: Loader, r: seq<Source>, rest: set<string>, k: string)
    requires Gathered(l, r, rest) && k in rest
    ensures Gathered(l, r + [l.sources[k]], rest - {k})
  {
    var r' := r + [l.sources[k]];
    assert forall i :: 0 <= i < |r| ==> r'[i] == r[i];
    if KeyedByName(l.sources) {
      forall i, j | 0 <= i < j < |r'| ensures r'[i] != r'[j] {
        if j == |r| { assert r[i].name !in rest; }
      }
    }
  }

  // ---------------------------------------------------------------------
  // loadSources

  /** The path a set entry is read from: an entry with a path must name a
      registered source, and is read from that source's path; an entry
      without one is read from the empty path. */
  function Resolve(reg: Registry, s: Source): (r: Result<string>)
    ensures r.Err? <==> s.filePath != "" && s.filePath !in reg
    ensures r.Err? ==> r.error == TemplateNotFound(s.filePath)
    ensures r.Ok? && s.filePath != "" ==> r.value == reg[s.filePath].filePath
    ensures s.filePath == "" ==> r == Ok("")
  {
    if s.filePath == "" then Ok("")
    else if s.filePath in reg then Ok(reg[s.filePath].filePath)
    else Err(TemplateNotFound(s.filePath))
  }

  /** `ioutil.ReadFile`; the empty path never names a file. */
  function ReadFile(fs: FileSystem, path: string): (r: Result<string>)
    ensures r.Ok? <==> path != "" && path in fs.files
    ensures r.Err? ==> r.error == ReadFailed(path)
  {
    if path != "" && path in fs.files then Ok(fs.files[path]) else Err(ReadFailed(path))
  }

  /** One loop iteration of `loadSources`: resolve, read, fill in the text. */
  function LoadOne(reg: Registry, s: Source, fs: FileSystem): (r: Result<Source>)
    ensures r.Ok? ==> r.value.name == s.name && r.value.filePath == s.filePath
    ensures r.Ok? ==> s.filePath != "" && s.filePath in reg && reg[s.filePath].filePath in fs.files &&
                      r.value.content == fs.files[reg[s.filePath].filePath]
    ensures r.Ok? <==> (s.filePath != "" && s.filePath in reg && reg[s.filePath].filePath != "" &&
                        reg[s.filePath].filePath in fs.files)
    ensures s.filePath != "" && s.filePath !in reg ==> r == Err(TemplateNotFound(s.filePath))
  {
    var path :- Resolve(reg, s);
    var content :- ReadFile(fs, path);
    Ok(s.(content := content))
  }

  /** `loadSources`: every entry is loaded in order and the first failure
      is returned. */
  function LoadSources(reg: Registry, sources: seq<Source>, fs: FileSystem): (r: Result<seq<Source>>)
    ensures r.Ok? <==> forall i :: 0 <= i < |sources| ==> LoadOne(reg, sources[i], fs).Ok?
    ensures r.Ok? ==> |r.value| == |sources| &&
                      forall i :: 0 <= i < |sources| ==> r.value[i] == LoadOne(reg, sources[i], fs).value
    ensures r.Err? ==> exists i :: 0 <= i < |sources| && FirstLoadFailure(reg, sources, fs, i) &&
                                   r.error == LoadOne(reg, sources[i], fs).error
    decreases |sources|
  {
    if |sources| == 0 then Ok([])
    else
      var first := LoadOne(reg, sources[0], fs);
      if first.Err? then Err(first.error)
      else
        var rest := LoadSources(reg, sources[1..], fs);
        assert forall i :: 1 <= i < |sources| ==> sources[i] == sources[1..][i - 1];
        if rest.Err? then
          var j :| 0 <= j < |sources[1..]| && FirstLoadFailure(reg, sources[1..], fs, j) &&
                   rest.error == LoadOne(reg, sources[1..][j], fs).error;
          assert FirstLoadFailure(reg, sources, fs, j + 1);
          Err(rest.error)
        else Ok([first.value] + rest.value)
  }

  /** Entry `i` is the first entry that fails to load. */
  predicate FirstLoadFailure(reg: Registry, sources: seq<Source>, fs: FileSystem, i: int)
    requires 0 <= i < |sources|
  {
    LoadOne(reg, sources[i], fs).Err? && forall k :: 0 <= k < i ==> LoadOne(reg, sources[k], fs).Ok?
  }

  /** The first entry that cannot be resolved in the registry ends the
      load with "template not found", unless an earlier entry already failed. */
  lemma UnresolvedEntryFailsLoad(reg: Registry, sources: seq<Source>, fs: FileSystem, i: int)
    requires 0 <= i < |sources| && sources[i].filePath != "" && sources[i].filePath !in reg
    ensures LoadSources(reg, sources, fs).Err?
    ensures (forall k :: 0 <= k < i ==> LoadOne(reg, sources[k], fs).Ok?) ==>
              LoadSources(reg, sources, fs) == Err(TemplateNotFound(sources[i].filePath))
  {
    var r := LoadSources(reg, sources, fs);
    var j :| 0 <= j < |sources| && FirstLoadFailure(reg, sources, fs, j) && r.error == LoadOne(reg, sources[j], fs).error;
    if forall k :: 0 <= k < i ==> LoadOne(reg, sources[k], fs).Ok? {
      assert j == i;
    }
  }

  /** An entry naming an inline (`AddText`) source, or naming no path at
      all, cannot be loaded: it is read from the empty path. */
  lemma InlineSourceNeverLoads(reg: Registry, s: Source, fs: FileSystem)
    requires s.filePath == "" || (s.filePath in reg && reg[s.filePath].filePath == "")
    ensures LoadOne(reg, s, fs) == Err(ReadFailed(""))
  {
  }

  // ---------------------------------------------------------------------
  // parseSources

  /** True iff the source's trees are exactly one, the root. */
  predicate IsSoleRoot(trees: TreeSet) {
    |trees| == 1 && trees[0].name == RootName
  }

  function WithoutRoot(trees: seq<Tree>): (r: seq<Tree>)
    ensures RootName !in Names(r)
    ensures forall t :: t in r <==> t in trees && t.name != RootName
  {
    if |trees| == 0 then []
    else
      var rest := WithoutRoot(trees[1..]);
      var r := if trees[0].name == RootName then rest else [trees[0]] + rest;
      NamesCons(trees[0], rest);
      assert forall t :: t in trees <==> t == trees[0] || t in trees[1..];
      r
  }

  /** Reference definition of the trees a source contributes: all of them
      when it defined only one, otherwise all but the root. */
  function Admitted(trees: TreeSet): (r: seq<Tree>)
    ensures RootName in Names(r) <==> IsSoleRoot(trees)
    ensures r == Contribution(trees, 0)
  {
    assert trees[0..] == trees;
    if |trees| == 1 then
      assert Names(trees) == {trees[0].name};
      ContributionWhole(trees, 0);
      trees
    else
      ContributionWithoutRoot(trees, 0);
      WithoutRoot(trees)
  }

  /** The trees of `trees[k..]` the inner loop admits, tree by tree. */
  function Contribution(trees: TreeSet, k: nat): seq<Tree>
    requires k <= |trees|
    decreases |trees| - k
  {
    if k == |trees| then []
    else (if trees[k].name == RootName && |trees| != 1 then [] else [trees[k]]) + Contribution(trees, k + 1)
  }

  lemma {:induction false} ContributionWhole(trees: TreeSet, k: nat)
    requires k <= |trees| == 1
    ensures Contribution(trees, k) == trees[k..]
  {
    if k == 0 {
      assert Contribution(trees, 1) == [];
      assert trees[0..] == [trees[0]];
    }
  }

  lemma {:induction false} ContributionWithoutRoot(trees: TreeSet, k: nat)
    requires k <= |trees| != 1
    ensures Contribution(trees, k) == WithoutRoot(trees[k..])
    decreases |trees| - k
  {
    if k < |trees| {
      assert trees[k..][0] == trees[k];
      assert trees[k..][1..] == trees[k + 1..];
      ContributionWithoutRoot(trees, k + 1);
    }
  }

  /** The trees admitted so far and the names they were admitted under. */
  datatype Admission = Admission(trees: seq<Tree>, parsedNames: set<string>)

  /** The inner loop of `parseSources` over one source's trees, from index
      `k`: a root is skipped unless it is the source's only tree, and an
      admitted root after an earlier one is an error. */
  function AdmitFrom(trees: TreeSet, k: nat, acc: Admission): (r: Result<Admission>)
    requires k <= |trees|
    ensures r.Err? <==> k == 0 && IsSoleRoot(trees) && RootName in acc.parsedNames
    ensures r.Err? ==> r.error == RootRedefined
    ensures r.Ok? ==> r.value.trees == acc.trees + Contribution(trees, k)
    decreases |trees| - k
  {
    if k == |trees| then
      assert Contribution(trees, k) == [];
      Ok(acc)
    else
      var t := trees[k];
      if t.name == RootName && |trees| != 1 then
        assert Contribution(trees, k) == Contribution(trees, k + 1) by {
          assert [] + Contribution(trees, k + 1) == Contribution(trees, k + 1);
        }
        AdmitFrom(trees, k + 1, acc)
      else if t.name == RootName && RootName in acc.parsedNames then
        Err(RootRedefined)
      else
        var rest := Contribution(trees, k + 1);
        var r := AdmitFrom(trees, k + 1, Admission(acc.trees + [t], acc.parsedNames + {t.name}));
        assert (acc.trees + [t]) + rest == acc.trees + ([t] + rest);
        r
  }

  /** The names recorded by the inner loop are those of the admitted trees. */
  lemma {:induction false} AdmitFromNames(trees: TreeSet, k: nat, acc: Admission)
    requires k <= |trees|
    requires AdmitFrom(trees, k, acc).Ok?
    ensures AdmitFrom(trees, k, acc).value.parsedNames == acc.parsedNames + Names(Contribution(trees, k))
    decreases |trees| - k
  {
    if k == |trees| {
      assert Contribution(trees, k) == [];
    } else {
      var t := trees[k];
      var rest := Contribution(trees, k + 1);
      if t.name == RootName && |trees| != 1 {
        assert Contribution(trees, k) == rest by {
          assert [] + rest == rest;
        }
        AdmitFromNames(trees, k + 1, acc);
      } else {
        AdmitFromNames(trees, k + 1, Admission(acc.trees + [t], acc.parsedNames + {t.name}));
        NamesCons(t, rest);
      }
    }
  }

  /** What the parser answers for a loaded source under a configuration. */
  function ParseOf(conf: Config, s: Source, funcs: map<string, Func>, lib: Library): Parsed {
    lib.parse(ParseRequest(s.name, s.content, conf.delimLeft, conf.delimRight, funcs))
  }

  predicate AllParsed(conf: Config, sources: seq<Source>, funcs: map<string, Func>, lib: Library) {
    forall i :: 0 <= i < |sources| ==> ParseOf(conf, sources[i], funcs, lib).Trees?
  }

  /** The trees of all sources, each source contributing `Admitted`. */
  function AdmittedAll(conf: Config, sources: seq<Source>, funcs: map<string, Func>, lib: Library): seq<Tree>
    requires AllParsed(conf, sources, funcs, lib)
    decreases |sources|
  {
    if |sources| == 0 then []
    else
      assert forall i :: 1 <= i < |sources| ==> sources[i] == sources[1..][i - 1];
      Admitted(ParseOf(conf, sources[0], funcs, lib).trees) + AdmittedAll(conf, sources[1..], funcs, lib)
  }

  /** How many sources parse to nothing but a root. */
  function SoleRoots(conf: Config, sources: seq<Source>, funcs: map<string, Func>, lib: Library): nat
    requires AllParsed(conf, sources, funcs, lib)
    decreases |sources|
  {
    if |sources| == 0 then 0
    else
      assert forall i :: 1 <= i < |sources| ==> sources[i] == sources[1..][i - 1];
      (if IsSoleRoot(ParseOf(conf, sources[0], funcs, lib).trees) then 1 else 0) +
      SoleRoots(conf, sources[1..], funcs, lib)
  }

  /** The outcome of the outer loop and the tree cache it leaves behind. */
  datatype Parsing = Parsing(result: Result<seq<Tree>>, cache: map<string, TreeSet>)

  /** The outer loop of `parseSources`. A cached entry would be looked up
      but is always replaced by a fresh parse, so only the cache writes are
      modelled: after a source's trees are admitted, they are stored under
      its path when caching is on and the path is not empty. */
  function ParseEach(conf: Config, sources: seq<Source>, funcs: map<string, Func>, lib: Library,
                     acc: Admission, cache: map<string, TreeSet>): (r: Parsing)
    ensures conf.autoReload ==> r.cache == cache
    ensures r.cache.Keys >= cache.Keys
    ensures r.result.Ok? ==> AllParsed(conf, sources, funcs, lib)
    ensures r.result.Ok? && !conf.autoReload ==>
              forall i :: 0 <= i < |sources| && sources[i].filePath != "" ==> sources[i].filePath in r.cache
    decreases |sources|
  {
    if |sources| == 0 then Parsing(Ok(acc.trees), cache)
    else
      var s := sources[0];
      var useCache := !conf.autoReload;
      assert forall i :: 1 <= i < |sources| ==> sources[i] == sources[1..][i - 1];
      match ParseOf(conf, s, funcs, lib)
      case SyntaxError(msg) => Parsing(Err(ParseFailed(s.name, msg)), cache)
      case Trees(trees) =>
        match AdmitFrom(trees, 0, acc)
        case Err(e) => Parsing(Err(e), cache)
        case Ok(next) =>
          var cache' := if useCache && s.filePath != "" then cache[s.filePath := trees] else cache;
          ParseEach(conf, sources[1..], funcs, lib, next, cache')
  }

  /** The admitted trees never depend on what the cache held. */
  lemma {:induction false} ParseEachIgnoresCache(conf: Config, sources: seq<Source>, funcs: map<string, Func>,
                                                 lib: Library, acc: Admission, c1: map<string, TreeSet>,
                                                 c2: map<string, TreeSet>)
    ensures ParseEach(conf, sources, funcs, lib, acc, c1).result == ParseEach(conf, sources, funcs, lib, acc, c2).result
    decreases |sources|
  {
    if |sources| > 0 {
      var s := sources[0];
      match ParseOf(conf, s, funcs, lib)
      case SyntaxError(_) =>
      case Trees(trees) =>
        match AdmitFrom(trees, 0, acc)
        case Err(_) =>
        case Ok(next) =>
          var useCache := !conf.autoReload;
          var d1 := if useCache && s.filePath != "" then c1[s.filePath := trees] else c1;
          var d2 := if useCache && s.filePath != "" then c2[s.filePath := trees] else c2;
          ParseEachIgnoresCache(conf, sources[1..], funcs, lib, next, d1, d2);
    }
  }

  /** A path no source is read from keeps its cache entry. */
  lemma {:induction false} ParseEachKeeps(conf: Config, sources: seq<Source>, funcs: map<string, Func>,
                                          lib: Library, acc: Admission, cache: map<string, TreeSet>, p: string)
    requires p in cache
    requires forall j :: 0 <= j < |sources| ==> sources[j].filePath != p
    ensures ParseEach(conf, sources, funcs, lib, acc, cache).cache[p] == cache[p]
    decreases |sources|
  {
    if |sources| > 0 {
      var s := sources[0];
      assert s == sources[0];
      assert forall j :: 0 <= j < |sources[1..]| ==> sources[1..][j] == sources[j + 1];
      match ParseOf(conf, s, funcs, lib)
      case SyntaxError(_) =>
      case Trees(trees) =>
        match AdmitFrom(trees, 0, acc)
        case Err(_) =>
        case Ok(next) =>
          var cache' := if !conf.autoReload && s.filePath != "" then cache[s.filePath := trees] else cache;
          ParseEachKeeps(conf, sources[1..], funcs, lib, next, cache', p);
    }
  }

  /** With caching on, a successful loop leaves under each path the trees
      the last source read from that path parsed to. */
  lemma {:induction false} ParseEachCaches(conf: Config, sources: seq<Source>, funcs: map<string, Func>,
                                           lib: Library, acc: Admission, cache: map<string, TreeSet>, i: nat)
    requires !conf.autoReload
    requires ParseEach(conf, sources, funcs, lib, acc, cache).result.Ok?
    requires i < |sources| && sources[i].filePath != ""
    requires forall j :: i < j < |sources| ==> sources[j].filePath != sources[i].filePath
    ensures ParseEach(conf, sources, funcs, lib, acc, cache).cache[sources[i].filePath] ==
            ParseOf(conf, sources[i], funcs, lib).trees
    decreases |sources|
  {
    var s := sources[0];
    var trees := ParseOf(conf, s, funcs, lib).trees;
    var next := AdmitFrom(trees, 0, acc).value;
    var cache' := if s.filePath != "" then cache[s.filePath := trees] else cache;
    assert ParseEach(conf, sources, funcs, lib, acc, cache) == ParseEach(conf, sources[1..], funcs, lib, next, cache');
    if i == 0 {
      assert forall j :: 0 <= j < |sources[1..]| ==> sources[1..][j] == sources[j + 1];
      ParseEachKeeps(conf, sources[1..], funcs, lib, next, cache', s.filePath);
    } else {
      assert sources[1..][i - 1] == sources[i];
      assert forall j :: i - 1 < j < |sources[1..]| ==> sources[1..][j] == sources[j + 1];
      ParseEachCaches(conf, sources[1..], funcs, lib, next, cache', i - 1);
    }
  }

  /** Stated apart so that callers get the fact without the cost of proving it in their context. */
  lemma AppendAssociates(a: seq<Tree>, b: seq<Tree>, c: seq<Tree>)
    ensures (a + b) + c == a + (b + c)
  {
  }

  /** Stated apart so that callers get the fact without the cost of proving it in their context. */
  lemma AppendEmpty(a: seq<Tree>)
    ensures [] + a == a
  {
  }

  /** When every source parses and at most one root is admitted in all,
      the loop admits each source's `Admitted` trees, in order. */
  lemma {:induction false} ParseEachAdmits(conf: Config, sources: seq<Source>, funcs: map<string, Func>,
                                           lib: Library, acc: Admission, cache: map<string, TreeSet>)
    requires AllParsed(conf, sources, funcs, lib)
    requires (if RootName in acc.parsedNames then 1 else 0) + SoleRoots(conf, sources, funcs, lib) <= 1
    ensures ParseEach(conf, sources, funcs, lib, acc, cache).result == Ok(acc.trees + AdmittedAll(conf, sources, funcs, lib))
    decreases |sources|
  {
    if |sources| == 0 {
      assert acc.trees + [] == acc.trees;
    } else {
      var s := sources[0];
      var trees := ParseOf(conf, s, funcs, lib).trees;
      assert forall i :: 1 <= i < |sources| ==> sources[i] == sources[1..][i - 1];
      var a := AdmitFrom(trees, 0, acc);
      assert a.Ok?;
      var cache' := if !conf.autoReload && s.filePath != "" then cache[s.filePath := trees] else cache;
      assert ParseEach(conf, sources, funcs, lib, acc, cache) == ParseEach(conf, sources[1..], funcs, lib, a.value, cache');
      AdmitFromNames(trees, 0, acc);
      assert Admitted(trees) == Contribution(trees, 0);
      assert RootName in a.value.parsedNames <==> RootName in acc.parsedNames || IsSoleRoot(trees);
      assert AllParsed(conf, sources[1..], funcs, lib);
      var rest := AdmittedAll(conf, sources[1..], funcs, lib);
      assert SoleRoots(conf, sources, funcs, lib) ==
             (if IsSoleRoot(trees) then 1 else 0) + SoleRoots(conf, sources[1..], funcs, lib);
      ParseEachAdmits(conf, sources[1..], funcs, lib, a.value, cache');
      assert AdmittedAll(conf, sources, funcs, lib) == Admitted(trees) + rest;
      AppendAssociates(acc.trees, Admitted(trees), rest);
    }
  }

  /** When every source parses, a second admitted root is an error. */
  lemma {:induction false} ParseEachRedefines(conf: Config, sources: seq<Source>, funcs: map<string, Func>,
                                              lib: Library, acc: Admission, cache: map<string, TreeSet>)
    requires AllParsed(conf, sources, funcs, lib)
    requires (if RootName in acc.parsedNames then 1 else 0) + SoleRoots(conf, sources, funcs, lib) > 1
    ensures ParseEach(conf, sources, funcs, lib, acc, cache).result == Err(RootRedefined)
    decreases |sources|
  {
    var s := sources[0];
    var trees := ParseOf(conf, s, funcs, lib).trees;
    assert forall i :: 1 <= i < |sources| ==> sources[i] == sources[1..][i - 1];
    var a := AdmitFrom(trees, 0, acc);
    if a.Ok? {
      var cache' := if !conf.autoReload && s.filePath != "" then cache[s.filePath := trees] else cache;
      assert ParseEach(conf, sources, funcs, lib, acc, cache) == ParseEach(conf, sources[1..], funcs, lib, a.value, cache');
      AdmitFromNames(trees, 0, acc);
      assert Admitted(trees) == Contribution(trees, 0);
      assert RootName in a.value.parsedNames <==> RootName in acc.parsedNames || IsSoleRoot(trees);
      ParseEachRedefines(conf, sources[1..], funcs, lib, a.value, cache');
    }
  }

  /** When every source before `sources[i]` parses, with at most one
      root-only source among them, and `sources[i]` does not parse, the
      loop fails with that source's syntax error. */
  lemma {:induction false} ParseEachSyntaxError(conf: Config, sources: seq<Source>, funcs: map<string, Func>,
                                                lib: Library, acc: Admission, cache: map<string, TreeSet>, i: nat)
    requires i < |sources| && ParseOf(conf, sources[i], funcs, lib).SyntaxError?
    requires AllParsed(conf, sources[..i], funcs, lib)
    requires (if RootName in acc.parsedNames then 1 else 0) + SoleRoots(conf, sources[..i], funcs, lib) <= 1
    ensures ParseEach(conf, sources, funcs, lib, acc, cache).result ==
            Err(ParseFailed(sources[i].name, ParseOf(conf, sources[i], funcs, lib).message))
    decreases |sources|
  {
    if i > 0 {
      var s := sources[0];
      var pre := sources[..i];
      assert pre[0] == s;
      var trees := ParseOf(conf, s, funcs, lib).trees;
      var a := AdmitFrom(trees, 0, acc);
      assert pre[1..] == sources[1..][..i - 1];
      assert SoleRoots(conf, pre, funcs, lib) ==
             (if IsSoleRoot(trees) then 1 else 0) + SoleRoots(conf, pre[1..], funcs, lib);
      assert a.Ok?;
      var cache' := if !conf.autoReload && s.filePath != "" then cache[s.filePath := trees] else cache;
      assert ParseEach(conf, sources, funcs, lib, acc, cache) == ParseEach(conf, sources[1..], funcs, lib, a.value, cache');
      AdmitFromNames(trees, 0, acc);
      assert Admitted(trees) == Contribution(trees, 0);
      assert RootName in a.value.parsedNames <==> RootName in acc.parsedNames || IsSoleRoot(trees);
      assert sources[1..][i - 1] == sources[i];
      ParseEachSyntaxError(conf, sources[1..], funcs, lib, a.value, cache', i - 1);
    }
  }

  /** A successful loop from the empty admission returns the admitted trees. */
  lemma ParseEachTrees(conf: Config, sources: seq<Source>, funcs: map<string, Func>, lib: Library,
                       cache: map<string, TreeSet>)
    requires ParseEach(conf, sources, funcs, lib, Admission([], {}), cache).result.Ok?
    ensures AllParsed(conf, sources, funcs, lib)
    ensures ParseEach(conf, sources, funcs, lib, Admission([], {}), cache).result.value ==
            AdmittedAll(conf, sources, funcs, lib)
  {
    ParseEachOutcome(conf, sources, funcs, lib, cache);
  }

  /** Once every source has parsed, the loop from the empty admission
      returns the admitted trees, unless more than one source defined only
      a root. */
  lemma ParseEachOutcome(conf: Config, sources: seq<Source>, funcs: map<string, Func>, lib: Library,
                         cache: map<string, TreeSet>)
    ensures AllParsed(conf, sources, funcs, lib) && SoleRoots(conf, sources, funcs, lib) <= 1 ==>
              ParseEach(conf, sources, funcs, lib, Admission([], {}), cache).result ==
              Ok(AdmittedAll(conf, sources, funcs, lib))
    ensures AllParsed(conf, sources, funcs, lib) && SoleRoots(conf, sources, funcs, lib) > 1 ==>
              ParseEach(conf, sources, funcs, lib, Admission([], {}), cache).result == Err(RootRedefined)
  {
    if AllParsed(conf, sources, funcs, lib) {
      if SoleRoots(conf, sources, funcs, lib) > 1 {
        ParseEachRedefines(conf, sources, funcs, lib, Admission([], {}), cache);
      } else {
        ParseEachAdmits(conf, sources, funcs, lib, Admission([], {}), cache);
        AppendEmpty(AdmittedAll(conf, sources, funcs, lib));
      }
    }
  }

  /** `parseSources`: admit the trees of every source, record them in the
      cache, then create and validate the composed template. */
  function ParseSources(l: Loader, sources: seq<Source>, funcs: map<string, Func>, lib: Library): (r: (Result<Namespace>, Loader))
    ensures r.1.conf == l.conf && r.1.sources == l.sources
    ensures r.1.treeCache == ParseEach(l.conf, sources, funcs, lib, Admission([], {}), l.treeCache).cache
    ensures r.0.Ok? ==> Complete(r.0.value)
    ensures r.0.Ok? ==> AllParsed(l.conf, sources, funcs, lib) &&
                        Names(r.0.value) == {DummyName} + Names(AdmittedAll(l.conf, sources, funcs, lib))
    ensures AllParsed(l.conf, sources, funcs, lib) && SoleRoots(l.conf, sources, funcs, lib) <= 1 ==>
              r.0 == CreateTemplate(AdmittedAll(l.conf, sources, funcs, lib), lib.reject)
    ensures AllParsed(l.conf, sources, funcs, lib) && SoleRoots(l.conf, sources, funcs, lib) > 1 ==>
              r.0 == Err(RootRedefined)
    ensures r.0.Ok? <==> && AllParsed(l.conf, sources, funcs, lib)
                         && SoleRoots(l.conf, sources, funcs, lib) <= 1
                         && CreateTemplate(AdmittedAll(l.conf, sources, funcs, lib), lib.reject).Ok?
  {
    var p := ParseEach(l.conf, sources, funcs, lib, Admission([], {}), l.treeCache);
    var l' := l.(treeCache := p.cache);
    ParseEachOutcome(l.conf, sources, funcs, lib, l.treeCache);
    match p.result
    case Err(e) => (Err(e), l')
    case Ok(trees) =>
      ParseEachTrees(l.conf, sources, funcs, lib, l.treeCache);
      (CreateTemplate(trees, lib.reject), l')
  }

  /** The first source that does not parse ends `parseSources` with its
      syntax error, unless an earlier redefined root ended it first. */
  lemma ParseSourcesSyntaxError(l: Loader, sources: seq<Source>, funcs: map<string, Func>, lib: Library, i: nat)
    requires i < |sources| && ParseOf(l.conf, sources[i], funcs, lib).SyntaxError?
    requires AllParsed(l.conf, sources[..i], funcs, lib) && SoleRoots(l.conf, sources[..i], funcs, lib) <= 1
    ensures ParseSources(l, sources, funcs, lib).0 ==
            Err(ParseFailed(sources[i].name, ParseOf(l.conf, sources[i], funcs, lib).message))
  {
    ParseEachSyntaxError(l.conf, sources, funcs, lib, Admission([], {}), l.treeCache, i);
  }

  // ---------------------------------------------------------------------
  // buildTemplate

  /** `buildTemplate`: load every entry, and only then parse. */
  function BuildTemplate(l: Loader, sources: seq<Source>, funcs: map<string, Func>, fs: FileSystem, lib: Library): (r: (Result<Namespace>, Loader))
    ensures r.1.conf == l.conf && r.1.sources == l.sources
    ensures LoadSources(l.sources, sources, fs).Err? ==> r == (LoadSources(l.sources, sources, fs).PropagateFailure(), l)
    ensures LoadSources(l.sources, sources, fs).Ok? ==> r == ParseSources(l, LoadSources(l.sources, sources, fs).value, funcs, lib)
    ensures r.0.Ok? ==> Complete(r.0.value) && RootName in Names(r.0.value)
  {
    match LoadSources(l.sources, sources, fs)
    case Err(e) => (Err(e), l)
    case Ok(loaded) => ParseSources(l, loaded, funcs, lib)
  }

  /** A build succeeds exactly when every entry loads, every source
      parses, at most one source defines only a root, and the admitted
      trees compose into a valid template, which is then the result. */
  lemma BuildSucceeds(l: Loader, sources: seq<Source>, funcs: map<string, Func>, fs: FileSystem, lib: Library)
    ensures BuildTemplate(l, sources, funcs, fs, lib).0.Ok? <==>
              && LoadSources(l.sources, sources, fs).Ok?
              && AllParsed(l.conf, LoadSources(l.sources, sources, fs).value, funcs, lib)
              && SoleRoots(l.conf, LoadSources(l.sources, sources, fs).value, funcs, lib) <= 1
              && CreateTemplate(AdmittedAll(l.conf, LoadSources(l.sources, sources, fs).value, funcs, lib), lib.reject).Ok?
    ensures BuildTemplate(l, sources, funcs, fs, lib).0.Ok? ==>
              BuildTemplate(l, sources, funcs, fs, lib).0 ==
              CreateTemplate(AdmittedAll(l.conf, LoadSources(l.sources, sources, fs).value, funcs, lib), lib.reject)
  {
  }

  /** A set of one entry whose source parses to a single root that invokes
      no other template builds, holding the placeholder and that root. */
  lemma RootOnlySourceBuilds(l: Loader, sources: seq<Source>, funcs: map<string, Func>, fs: FileSystem,
                             lib: Library, t: Tree)
    requires LoadSources(l.sources, sources, fs).Ok? && |LoadSources(l.sources, sources, fs).value| == 1
    requires ParseOf(l.conf, LoadSources(l.sources, sources, fs).value[0], funcs, lib) == Trees([t])
    requires t.name == RootName && |RequiredTemplates(t.root)| == 0
    requires lib.reject(InitialNamespace, t).None?
    ensures BuildTemplate(l, sources, funcs, fs, lib).0 == Ok(InitialNamespace + [t])
  {
    var loaded := LoadSources(l.sources, sources, fs).value;
    assert AllParsed(l.conf, loaded, funcs, lib);
    assert loaded[1..] == [];
    assert SoleRoots(l.conf, loaded, funcs, lib) == 1;
    assert AdmittedAll(l.conf, loaded, funcs, lib) == [t];
    RootOnlyTemplate(t, lib.reject);
  }

  /** The composition of a lone root that invokes nothing. */
  lemma RootOnlyTemplate(t: Tree, reject: (Namespace, Tree) -> Option<string>)
    requires t.name == RootName && |RequiredTemplates(t.root)| == 0
    requires reject(InitialNamespace, t).None?
    ensures CreateTemplate([t], reject) == Ok(InitialNamespace + [t])
  {
    var ns := InitialNamespace + [t];
    assert !KeepsOld(InitialNamespace, DummyName, t);
    InstallAppends(InitialNamespace, t);
    assert AddAll(InitialNamespace, DummyName, [t], reject) == Ok(ns) by {
      var m := AddAllFirst(InitialNamespace, DummyName, t, [], reject);
      assert [t] + [] == [t];
    }
    assert RequiredTemplates(ns[0].root) == [];
    assert ns[1] == t;
  }

  /** A set entry that names no registered source makes the build fail
      before anything is parsed, whatever the parser would have said. */
  lemma UnresolvedEntryFailsBuild(l: Loader, sources: seq<Source>, funcs: map<string, Func>, fs: FileSystem,
                                  lib1: Library, lib2: Library, i: int)
    requires 0 <= i < |sources| && sources[i].filePath != "" && sources[i].filePath !in l.sources
    ensures BuildTemplate(l, sources, funcs, fs, lib1).0.Err?
    ensures BuildTemplate(l, sources, funcs, fs, lib1).0 == BuildTemplate(l, sources, funcs, fs, lib2).0
    ensures BuildTemplate(l, sources, funcs, fs, lib1).1 == l
  {
    UnresolvedEntryFailsLoad(l.sources, sources, fs, i);
  }

  /** Root rules of a build whose entries all load and parse: two sources
      that each define only a root fail with a redefinition; with no such
      source (and no refused tree) the build fails for a missing root. */
  lemma BuildRootRules(l: Loader, sources: seq<Source>, funcs: map<string, Func>, fs: FileSystem, lib: Library)
    requires LoadSources(l.sources, sources, fs).Ok?
    requires AllParsed(l.conf, LoadSources(l.sources, sources, fs).value, funcs, lib)
    ensures var loaded := LoadSources(l.sources, sources, fs).value;
            SoleRoots(l.conf, loaded, funcs, lib) > 1 ==>
              BuildTemplate(l, sources, funcs, fs, lib).0 == Err(RootRedefined)
    ensures var loaded := LoadSources(l.sources, sources, fs).value;
            SoleRoots(l.conf, loaded, funcs, lib) == 0 &&
            AddAll(InitialNamespace, DummyName, AdmittedAll(l.conf, loaded, funcs, lib), lib.reject).Ok? ==>
              BuildTemplate(l, sources, funcs, fs, lib).0 == Err(MissingRoot)
  {
    var loaded := LoadSources(l.sources, sources, fs).value;
    if SoleRoots(l.conf, loaded, funcs, lib) > 1 {
      ParseEachRedefines(l.conf, loaded, funcs, lib, Admission([], {}), l.treeCache);
    } else {
      ParseEachAdmits(l.conf, loaded, funcs, lib, Admission([], {}), l.treeCache);
      AppendEmpty(AdmittedAll(l.conf, loaded, funcs, lib));
      AdmittedAllRoot(l.conf, loaded, funcs, lib);
    }
  }

  /** The admitted trees contain a root exactly when some source defined
      only a root. */
  lemma {:induction false} AdmittedAllRoot(conf: Config, sources: seq<Source>, funcs: map<string, Func>, lib: Library)
    requires AllParsed(conf, sources, funcs, lib)
    ensures RootName in Names(AdmittedAll(conf, sources, funcs, lib)) <==> SoleRoots(conf, sources, funcs, lib) > 0
    decreases |sources|
  {
    if |sources| > 0 {
      assert forall i :: 1 <= i < |sources| ==> sources[i] == sources[1..][i - 1];
      AdmittedAllRoot(conf, sources[1..], funcs, lib);
      NamesConcat(Admitted(ParseOf(conf, sources[0], funcs, lib).trees), AdmittedAll(conf, sources[1..], funcs, lib));
    }
  }

  lemma NamesConcat(a: seq<Tree>, b: seq<Tree>)
    ensures Names(a + b) == Names(a) + Names(b)
  {
    var s := a + b;
    forall x | x in Names(s) ensures x in Names(a) + Names(b) {
      var i :| 0 <= i < |s| && s[i].name == x;
      if i >= |a| { assert b[i - |a|] == s[i]; }
    }
    forall x | x in Names(b) ensures x in Names(s) {
      var i :| 0 <= i < |b| && b[i].name == x;
      assert s[i + |a|] == b[i];
    }
    forall x | x in Names(a) ensures x in Names(s) {
      var i :| 0 <= i < |a| && a[i].name == x;
      assert s[i] == a[i];
    }
  }
}

=== FILE: parse.dfy ===
/** Fragment-dependency validation: which fragments a parse tree invokes,
    whether a composed namespace of fragments is complete, and how the
    admitted trees are combined into one template before it is validated. */
module Parse {

  import opened Errors
  import opened Trees

  /** The name of the entry-point fragment. */
  const RootName: string := ""

  /** The name of the placeholder template every composition starts from. */
  const DummyName: string := "__dummy__"

  /** A composed template's namespace: its fragments in the order
      `Templates()` lists them (an order Go leaves unspecified). */
  type Namespace = seq<Tree>

  // ---------------------------------------------------------------------
  // requiredTemplates

  /** The names of the fragments a list invokes, in document order. */
  function RequiredTemplates(l: NodeList): (names: seq<string>)
    ensures l.NilList? ==> names == []
    decreases l
  {
    match l
    case NilList => []
    case Nodes(ns) => RequiredSeq(ns)
  }

  function RequiredSeq(ns: seq<Node>): seq<string>
    decreases ns
  {
    if |ns| == 0 then [] else RequiredOf(ns[0]) + RequiredSeq(ns[1..])
  }

  /** Only nested lists and both branches of `if` and `range` are entered. */
  function RequiredOf(n: Node): seq<string>
    decreases n
  {
    match n
    case TemplateCall(name) => [name]
    case ListOf(l) => RequiredTemplates(l)
    case If(a, b) => RequiredTemplates(a) + RequiredTemplates(b)
    case Range(a, b) => RequiredTemplates(a) + RequiredTemplates(b)
    case _ => []
  }

  /** Reference definition: `target` is one of the list's nodes, or lies
      inside a nested list or an `if`/`range` branch of one of them. */
  predicate Reaches(l: NodeList, target: Node)
    decreases l
  {
    l.Nodes? && exists i :: 0 <= i < |l.nodes| && Within(l.nodes[i], target)
  }

  predicate Within(n: Node, target: Node)
    decreases n
  {
    n == target ||
    match n
    case ListOf(l) => Reaches(l, target)
    case If(a, b) => Reaches(a, target) || Reaches(b, target)
    case Range(a, b) => Reaches(a, target) || Reaches(b, target)
    case _ => false
  }

  /** A name is required exactly when a call of it is reachable. */
  lemma {:induction false} RequiredIffReaches(l: NodeList, name: string)
    ensures name in RequiredTemplates(l) <==> Reaches(l, TemplateCall(name))
    decreases l
  {
    match l
    case NilList =>
    case Nodes(ns) => RequiredSeqIffWithin(ns, name);
  }

  lemma {:induction false} RequiredSeqIffWithin(ns: seq<Node>, name: string)
    ensures name in RequiredSeq(ns) <==>
            exists i :: 0 <= i < |ns| && Within(ns[i], TemplateCall(name))
    decreases ns
  {
    if |ns| > 0 {
      RequiredOfIffWithin(ns[0], name);
      RequiredSeqIffWithin(ns[1..], name);
      if name in RequiredSeq(ns[1..]) {
        var i :| 0 <= i < |ns[1..]| && Within(ns[1..][i], TemplateCall(name));
        assert Within(ns[i + 1], TemplateCall(name));
      }
      if exists i :: 0 <= i < |ns| && Within(ns[i], TemplateCall(name)) {
        var i :| 0 <= i < |ns| && Within(ns[i], TemplateCall(name));
        if i > 0 {
          assert Within(ns[1..][i - 1], TemplateCall(name));
        }
      }
    }
  }

  lemma {:induction false} RequiredOfIffWithin(n: Node, name: string)
    ensures name in RequiredOf(n) <==> Within(n, TemplateCall(name))
    decreases n
  {
    match n
    case TemplateCall(m) =>
    case ListOf(l) => RequiredIffReaches(l, name);
    case If(a, b) => RequiredIffReaches(a, name); RequiredIffReaches(b, name);
    case Range(a, b) => RequiredIffReaches(a, name); RequiredIffReaches(b, name);
    case With(a, b) =>
    case Text(_) =>
    case Comment =>
    case Action =>
  }

  /** Document order: the names of a concatenation are the names of its
      parts, concatenated. */
  lemma RequiredConcat(a: seq<Node>, b: seq<Node>)
    ensures RequiredTemplates(Nodes(a + b)) == RequiredTemplates(Nodes(a)) + RequiredTemplates(Nodes(b))
  {
    RequiredSeqConcat(a, b);
  }

  lemma {:induction false} RequiredSeqConcat(a: seq<Node>, b: seq<Node>)
    ensures RequiredSeq(a + b) == RequiredSeq(a) + RequiredSeq(b)
    decreases |a|
  {
    if |a| == 0 {
      assert a + b == b;
    } else {
      assert (a + b)[0] == a[0];
      assert (a + b)[1..] == a[1..] + b;
      RequiredSeqConcat(a[1..], b);
    }
  }

  /** A node that is neither a call, a list, an `if` nor a `range` (a
      `with` block included) contributes nothing wherever it stands. */
  lemma OpaqueNodeContributesNothing(a: seq<Node>, n: Node, b: seq<Node>)
    requires n.With? || n.Text? || n.Comment? || n.Action?
    ensures RequiredTemplates(Nodes(a + [n] + b)) == RequiredTemplates(Nodes(a + b))
  {
    RequiredConcat(a + [n], b);
    RequiredConcat(a, [n]);
    RequiredConcat(a, b);
    assert RequiredSeq([n]) == RequiredOf(n) + RequiredSeq([]);
  }

  // ---------------------------------------------------------------------
  // validateTemplate

  /** The fragments that count as defined: every name but the root's. */
  function Defined(ns: Namespace): set<string> {
    set i | 0 <= i < |ns| && ns[i].name != RootName :: ns[i].name
  }

  /** The required names of every fragment, fragment by fragment. */
  function Needed(ns: Namespace): seq<string> {
    if |ns| == 0 then [] else RequiredTemplates(ns[0].root) + Needed(ns[1..])
  }

  /** The entries of `need` missing from `have`, one per occurrence. */
  function Undefined(need: seq<string>, have: set<string>): seq<string> {
    if |need| == 0 then []
    else (if need[0] in have then [] else [need[0]]) + Undefined(need[1..], have)
  }

  /** Reference definition of a complete namespace: it has a root, and
      every name invoked by any fragment is defined under a non-root name. */
  predicate Complete(ns: Namespace) {
    && RootName in Names(ns)
    && forall i, n :: 0 <= i < |ns| && n in RequiredTemplates(ns[i].root) ==>
         n != RootName && n in Names(ns)
  }

  /** How often `n` is invoked across all fragments of the namespace. */
  function Occurrences(ns: Namespace, n: string): nat {
    multiset(Needed(ns))[n]
  }

  lemma {:induction false} UndefinedCount(need: seq<string>, have: set<string>)
    ensures forall n :: multiset(Undefined(need, have))[n] ==
                        (if n in have then 0 else multiset(need)[n])
    decreases |need|
  {
    if |need| > 0 {
      UndefinedCount(need[1..], have);
      assert need == [need[0]] + need[1..];
    }
  }

  /** A needed name is required by some fragment. */
  lemma {:induction false} NeededHasSource(ns: Namespace, n: string)
    requires n in Needed(ns)
    ensures exists i :: 0 <= i < |ns| && n in RequiredTemplates(ns[i].root)
    decreases |ns|
  {
    if n !in RequiredTemplates(ns[0].root) {
      assert n in Needed(ns[1..]);
      NeededHasSource(ns[1..], n);
      var i :| 0 <= i < |ns[1..]| && n in RequiredTemplates(ns[1..][i].root);
      assert ns[1..][i] == ns[i + 1];
    }
  }

  /** A name some fragment requires is needed. */
  lemma {:induction false} SourceIsNeeded(ns: Namespace, n: string, i: nat)
    requires i < |ns| && n in RequiredTemplates(ns[i].root)
    ensures n in Needed(ns)
    decreases i
  {
    if i > 0 {
      assert ns[1..][i - 1] == ns[i];
      SourceIsNeeded(ns[1..], n, i - 1);
    }
  }

  lemma NeededMembers(ns: Namespace)
    ensures forall n :: n in Needed(ns) <==>
                        exists i :: 0 <= i < |ns| && n in RequiredTemplates(ns[i].root)
  {
    forall n | n in Needed(ns)
      ensures exists i :: 0 <= i < |ns| && n in RequiredTemplates(ns[i].root)
    {
      NeededHasSource(ns, n);
    }
    forall n, i | 0 <= i < |ns| && n in RequiredTemplates(ns[i].root)
      ensures n in Needed(ns)
    {
      SourceIsNeeded(ns, n, i);
    }
  }

  /** `validateTemplate`: the root check comes first; then every required
      name of every fragment must be defined. */
  function Validate(ns: Namespace): (r: Outcome)
    ensures r == Fail(MissingRoot) <==> RootName !in Names(ns)
    ensures r.Pass? <==> Complete(ns)
    ensures r.Fail? ==> r.error.MissingRoot? || r.error.MissingTemplates?
    ensures r.Fail? && r.error.MissingTemplates? ==>
              && |r.error.names| > 0
              && forall n :: multiset(r.error.names)[n] ==
                             (if n in Defined(ns) then 0 else Occurrences(ns, n))
  {
    if RootName !in Names(ns) then Fail(MissingRoot)
    else
      var need := Needed(ns);
      var missing := Undefined(need, Defined(ns));
      UndefinedCount(need, Defined(ns));
      UndefinedEmpty(need, Defined(ns));
      CompleteIffNeededDefined(ns);
      if |missing| > 0 then Fail(MissingTemplates(missing)) else Pass
  }

  /** Nothing is missing iff every needed name is available. */
  lemma {:induction false} UndefinedEmpty(need: seq<string>, have: set<string>)
    ensures |Undefined(need, have)| == 0 <==> forall n :: n in need ==> n in have
    decreases |need|
  {
    if |need| > 0 {
      UndefinedEmpty(need[1..], have);
      assert forall n :: n in need <==> n == need[0] || n in need[1..] by {
        assert need == [need[0]] + need[1..];
      }
    }
  }

  /** With a root present, completeness is exactly that every needed name
      is defined. */
  lemma CompleteIffNeededDefined(ns: Namespace)
    requires RootName in Names(ns)
    ensures Complete(ns) <==> forall n :: n in Needed(ns) ==> n in Defined(ns)
  {
    NeededMembers(ns);
    DefinedNames(ns);
    if !Complete(ns) {
      var i, n :| 0 <= i < |ns| && n in RequiredTemplates(ns[i].root) && !(n != RootName && n in Names(ns));
      assert n in Needed(ns) && n !in Defined(ns);
    }
  }

  lemma DefinedNames(ns: Namespace)
    ensures forall n :: n in Defined(ns) <==> n != RootName && n in Names(ns)
  {
    forall n | n != RootName && n in Names(ns) ensures n in Defined(ns) {
      var i :| 0 <= i < |ns| && ns[i].name == n;
    }
  }

  lemma {:induction false} NeededConcat(a: Namespace, b: Namespace)
    ensures Needed(a + b) == Needed(a) + Needed(b)
    decreases |a|
  {
    if |a| == 0 {
      assert a + b == b;
    } else {
      assert (a + b)[0] == a[0];
      assert (a + b)[1..] == a[1..] + b;
      NeededConcat(a[1..], b);
    }
  }

  lemma {:induction false} NeededPermutation(a: Namespace, b: Namespace)
    requires multiset(a) == multiset(b)
    ensures multiset(Needed(a)) == multiset(Needed(b))
    decreases |a|
  {
    if |a| == 0 {
      assert |b| == |multiset(b)| == 0;
    } else {
      assert a[0] in multiset(b);
      var j :| 0 <= j < |b| && b[j] == a[0];
      var rest := b[..j] + b[j + 1..];
      RemoveOne(b, j);
      assert a == [a[0]] + a[1..];
      assert multiset(a[1..]) == multiset(a) - multiset{a[0]};
      NeededPermutation(a[1..], rest);
      assert Needed(a) == RequiredTemplates(a[0].root) + Needed(a[1..]);
      SwapSummands(multiset(Needed(a)), multiset(Needed(a[1..])), multiset(Needed(rest)),
                   multiset(Needed(b)), multiset(RequiredTemplates(a[0].root)));
    }
  }

  lemma SwapSummands(x: multiset<string>, y: multiset<string>, z: multiset<string>,
                     w: multiset<string>, r: multiset<string>)
    requires x == r + y && y == z && w == z + r
    ensures x == w
  {
  }

  /** Taking one fragment out of a namespace takes its required names out
      of the needed names. */
  lemma {:induction false} RemoveOne(b: Namespace, j: nat)
    requires j < |b|
    ensures multiset(b[..j] + b[j + 1..]) == multiset(b) - multiset{b[j]}
    ensures multiset(Needed(b)) ==
            multiset(Needed(b[..j] + b[j + 1..])) + multiset(RequiredTemplates(b[j].root))
  {
    var front, back := b[..j], b[j + 1..];
    assert b == front + [b[j]] + back;
    assert multiset(b) == multiset(front) + multiset{b[j]} + multiset(back);
    NeededSplit(front, b[j], back);
    NeededConcat(front, back);
  }

  lemma NeededSplit(front: Namespace, t: Tree, back: Namespace)
    ensures Needed(front + [t] + back) == Needed(front) + RequiredTemplates(t.root) + Needed(back)
  {
    NeededConcat(front + [t], back);
    NeededConcat(front, [t]);
    assert Needed([t]) == RequiredTemplates(t.root) + Needed([]);
  }

  /** The verdict and the missing names (as a multiset) do not depend on
      the order in which the namespace lists its fragments. */
  lemma ValidateIgnoresOrder(a: Namespace, b: Namespace)
    requires multiset(a) == multiset(b)
    ensures Validate(a).Pass? == Validate(b).Pass?
    ensures Validate(a) == Fail(MissingRoot) <==> Validate(b) == Fail(MissingRoot)
    ensures Validate(a).Fail? && Validate(a).error.MissingTemplates? ==>
              Validate(b).Fail? && Validate(b).error.MissingTemplates? &&
              multiset(Validate(a).error.names) == multiset(Validate(b).error.names)
  {
    assert forall t :: t in a <==> t in b by {
      forall t ensures t in a <==> t in b {
        assert t in a <==> t in multiset(a);
        assert t in b <==> t in multiset(b);
      }
    }
    assert Names(a) == Names(b) by {
      forall x | x in Names(a) ensures x in Names(b) {
        var i :| 0 <= i < |a| && a[i].name == x;
        assert a[i] in multiset(b);
        var j :| 0 <= j < |b| && b[j] == a[i];
      }
      forall x | x in Names(b) ensures x in Names(a) {
        var i :| 0 <= i < |b| && b[i].name == x;
        assert b[i] in multiset(a);
        var j :| 0 <= j < |a| && a[j] == b[i];
      }
    }
    assert Defined(a) == Defined(b) by {
      forall x | x in Defined(a) ensures x in Defined(b) {
        var i :| 0 <= i < |a| && a[i].name != RootName && a[i].name == x;
        assert a[i] in multiset(b);
        var j :| 0 <= j < |b| && b[j] == a[i];
      }
      forall x | x in Defined(b) ensures x in Defined(a) {
        var i :| 0 <= i < |b| && b[i].name != RootName && b[i].name == x;
        assert b[i] in multiset(a);
        var j :| 0 <= j < |a| && a[j] == b[i];
      }
    }
    NeededPermutation(a, b);
    var ua := Undefined(Needed(a), Defined(a));
    var ub := Undefined(Needed(b), Defined(b));
    UndefinedCount(Needed(a), Defined(a));
    UndefinedCount(Needed(b), Defined(b));
    assert multiset(ua) == multiset(ub) by {
      forall n ensures multiset(ua)[n] == multiset(ub)[n] {
        assert multiset(Needed(a))[n] == multiset(Needed(b))[n];
      }
    }
    assert |ua| == |multiset(ua)| == |multiset(ub)| == |ub|;
  }

  // ---------------------------------------------------------------------
  // createTemplate

  /** True iff adding `t` keeps the fragment already defined under its
      name. `createTemplate` calls `AddParseTree` on the template the
      previous call returned, named `prev`; html/template records the
      returned template's tree, and that tree is the old one only when `t`
      is empty and `prev` is `t`'s own name. Under any other receiver an
      empty tree replaces the fragment. */
  predicate KeepsOld(ns: Namespace, prev: string, t: Tree) {
    IsEmptyList(t.root) && t.name == prev && t.name in Names(ns)
  }

  /** html/template's `AddParseTree` called on the template named `prev`,
      reduced to its effect on the namespace: a failure the library may
      report is an input (`reject`); otherwise the tree is installed under
      its name unless `KeepsOld` says the old fragment stays. */
  function AddParseTree(ns: Namespace, prev: string, t: Tree, reject: (Namespace, Tree) -> Option<string>): (r: Result<Namespace>)
    ensures r.Err? <==> reject(ns, t).Some?
    ensures r.Ok? ==> Names(r.value) == Names(ns) + {t.name}
    ensures r.Ok? && UniqueNames(ns) ==> UniqueNames(r.value)
    ensures r.Ok? && !KeepsOld(ns, prev, t) ==> Lookup(r.value, t.name) == Some(t)
    ensures r.Ok? && KeepsOld(ns, prev, t) ==> r.value == ns
    ensures r.Ok? ==> forall n :: n != t.name ==> Lookup(r.value, n) == Lookup(ns, n)
  {
    match reject(ns, t)
    case Some(msg) => Err(AddTreeFailed(msg))
    case None =>
      if KeepsOld(ns, prev, t) then
        assert Names(ns) == Names(ns) + {t.name};
        Ok(ns)
      else
        InstallLookup(ns, t);
        Ok(Install(ns, t))
  }

  /** The first fragment defined under `name`. */
  function Lookup(ns: Namespace, name: string): (r: Option<Tree>)
    ensures r.Some? <==> name in Names(ns)
    ensures r.Some? ==> r.value in ns && r.value.name == name
  {
    if |ns| == 0 then None
    else if ns[0].name == name then Some(ns[0])
    else
      var r := Lookup(ns[1..], name);
      assert name in Names(ns) ==> ns[0].name == name || name in Names(ns[1..]) by {
        if name in Names(ns) {
          var i :| 0 <= i < |ns| && ns[i].name == name;
          if i > 0 { assert ns[1..][i - 1] == ns[i]; }
        }
      }
      assert name in Names(ns[1..]) ==> name in Names(ns) by {
        if name in Names(ns[1..]) {
          var i :| 0 <= i < |ns[1..]| && ns[1..][i].name == name;
          assert ns[i + 1].name == name;
        }
      }
      r
  }

  lemma LookupCons(x: Tree, rest: Namespace)
    ensures forall n :: Lookup([x] + rest, n) == if x.name == n then Some(x) else Lookup(rest, n)
  {
    assert ([x] + rest)[0] == x && ([x] + rest)[1..] == rest;
  }

  /** Defines `t` under its name: a fragment of that name is replaced in
      place, otherwise `t` is appended. */
  function Install(ns: Namespace, t: Tree): (r: Namespace)
    ensures Names(r) == Names(ns) + {t.name}
    ensures UniqueNames(ns) ==> UniqueNames(r)
    decreases |ns|
  {
    if |ns| == 0 then
      NamesCons(t, []);
      assert Names(ns) == {};
      [t]
    else if ns[0].name == t.name then
      NamesCons(ns[0], ns[1..]);
      NamesCons(t, ns[1..]);
      assert ns == [ns[0]] + ns[1..];
      [t] + ns[1..]
    else
      var rest := Install(ns[1..], t);
      NamesCons(ns[0], ns[1..]);
      NamesCons(ns[0], rest);
      assert ns == [ns[0]] + ns[1..];
      [ns[0]] + rest
  }

  /** After installing, the name finds `t` and every other name finds what
      it found before. */
  lemma {:induction false} InstallLookup(ns: Namespace, t: Tree)
    ensures Lookup(Install(ns, t), t.name) == Some(t)
    ensures forall n :: n != t.name ==> Lookup(Install(ns, t), n) == Lookup(ns, n)
    decreases |ns|
  {
    if |ns| == 0 {
      LookupCons(t, []);
    } else {
      assert ns == [ns[0]] + ns[1..];
      LookupCons(ns[0], ns[1..]);
      if ns[0].name == t.name {
        LookupCons(t, ns[1..]);
      } else {
        InstallLookup(ns[1..], t);
        LookupCons(ns[0], Install(ns[1..], t));
      }
    }
  }

  /** A new name is appended at the end. */
  lemma {:induction false} InstallAppends(ns: Namespace, t: Tree)
    requires t.name !in Names(ns)
    ensures Install(ns, t) == ns + [t]
    decreases |ns|
  {
    if |ns| > 0 {
      NamesCons(ns[0], ns[1..]);
      assert ns == [ns[0]] + ns[1..];
      InstallAppends(ns[1..], t);
      assert [ns[0]] + (ns[1..] + [t]) == ns + [t];
    }
  }

  lemma UpdateTail(ns: seq<Tree>, i: nat, t: Tree)
    requires 0 < i < |ns|
    ensures ns[i := t] == [ns[0]] + ns[1..][i - 1 := t]
  {
  }

  /** An existing name is replaced where its first fragment stands. */
  lemma {:induction false} InstallReplaces(ns: Namespace, i: nat, t: Tree)
    requires i < |ns| && ns[i].name == t.name
    requires forall j :: 0 <= j < i ==> ns[j].name != t.name
    ensures Install(ns, t) == ns[i := t]
    decreases |ns|
  {
    if i == 0 {
      assert ns[0 := t] == [t] + ns[1..];
    } else {
      assert ns[0].name != t.name;
      InstallReplaces(ns[1..], i - 1, t);
      UpdateTail(ns, i, t);
    }
  }

  lemma NamesCons(t: Tree, ts: seq<Tree>)
    ensures Names([t] + ts) == {t.name} + Names(ts)
    ensures UniqueNames([t] + ts) <==> t.name !in Names(ts) && UniqueNames(ts)
  {
    var s := [t] + ts;
    forall x | x in Names(s) ensures x in {t.name} + Names(ts) {
      var i :| 0 <= i < |s| && s[i].name == x;
      if i > 0 { assert ts[i - 1] == s[i]; }
    }
    forall x | x in Names(ts) ensures x in Names(s) {
      var i :| 0 <= i < |ts| && ts[i].name == x;
      assert s[i + 1] == ts[i];
    }
    assert s[0] == t;
    if t.name in Names(ts) {
      var i :| 0 <= i < |ts| && ts[i].name == t.name;
      assert s[i + 1] == ts[i];
    }
    if UniqueNames(s) {
      forall i, j | 0 <= i < j < |ts| ensures ts[i].name != ts[j].name {
        assert s[i + 1] == ts[i] && s[j + 1] == ts[j];
      }
    }
    if t.name !in Names(ts) && UniqueNames(ts) {
      forall i, j | 0 <= i < j < |s| ensures s[i].name != s[j].name {
        assert s[j] == ts[j - 1] && ts[j - 1].name in Names(ts);
        if i > 0 { assert s[i] == ts[i - 1]; } else { assert s[i] == t; }
      }
    }
  }

  /** The namespace every composition starts from: the empty dummy. */
  const InitialNamespace: Namespace := [Tree(DummyName, Nodes([]))]

  /** Adds the trees one by one, each on the template the previous add
      returned (first the one named `prev`); the first failure ends the loop. */
  function AddAll(ns: Namespace, prev: string, trees: seq<Tree>, reject: (Namespace, Tree) -> Option<string>): (r: Result<Namespace>)
    ensures r.Ok? ==> Names(r.value) == Names(ns) + Names(trees)
    ensures r.Err? ==> r.error.AddTreeFailed?
    decreases |trees|
  {
    if |trees| == 0 then Ok(ns)
    else
      var first := AddParseTree(ns, prev, trees[0], reject);
      if first.Err? then
        Err(first.error)
      else
        var r := AddAll(first.value, trees[0].name, trees[1..], reject);
        NamesCons(trees[0], trees[1..]);
        assert trees == [trees[0]] + trees[1..];
        r
  }

  /** Adding a concatenation is adding its parts in turn, the second part
      starting from the first part's last tree. */
  lemma {:induction false} AddAllConcat(ns: Namespace, prev: string, a: seq<Tree>, b: seq<Tree>,
                                        reject: (Namespace, Tree) -> Option<string>)
    requires |a| > 0
    ensures AddAll(ns, prev, a + b, reject) ==
            match AddAll(ns, prev, a, reject)
            case Err(e) => Err(e)
            case Ok(m) => AddAll(m, a[|a| - 1].name, b, reject)
    decreases |a|
  {
    assert (a + b)[0] == a[0] && (a + b)[1..] == a[1..] + b;
    if |a| > 1 {
      if AddParseTree(ns, prev, a[0], reject).Ok? {
        AddAllConcat(AddParseTree(ns, prev, a[0], reject).value, a[0].name, a[1..], b, reject);
        assert a[1..][|a[1..]| - 1] == a[|a| - 1];
      }
    } else {
      assert a[1..] == [];
    }
  }

  /** `createTemplate`: add every tree to the dummy namespace, then validate.
      An add failure is returned before validation runs; a success is a
      complete namespace holding the dummy and every admitted name. */
  function CreateTemplate(trees: seq<Tree>, reject: (Namespace, Tree) -> Option<string>): (r: Result<Namespace>)
    ensures r.Ok? ==> Complete(r.value) && Names(r.value) == {DummyName} + Names(trees)
    ensures r.Ok? <==> AddAll(InitialNamespace, DummyName, trees, reject).Ok? &&
                       Complete(AddAll(InitialNamespace, DummyName, trees, reject).value)
    ensures r.Ok? ==> r == AddAll(InitialNamespace, DummyName, trees, reject)
    ensures r.Err? && r.error.AddTreeFailed? <==> AddAll(InitialNamespace, DummyName, trees, reject).Err?
    ensures r == Err(MissingRoot) <==>
              AddAll(InitialNamespace, DummyName, trees, reject).Ok? && RootName !in Names(trees)
    ensures AddAll(InitialNamespace, DummyName, trees, reject).Err? ==>
              r == Err(AddAll(InitialNamespace, DummyName, trees, reject).error)
    ensures AddAll(InitialNamespace, DummyName, trees, reject).Ok? && r.Err? ==>
              Validate(AddAll(InitialNamespace, DummyName, trees, reject).value) == Fail(r.error)
  {
    var ns :- AddAll(InitialNamespace, DummyName, trees, reject);
    NamesCons(Tree(DummyName, Nodes([])), []);
    assert Names(InitialNamespace) == {DummyName};
    :- Validate(ns);
    Ok(ns)
  }

  // ---------------------------------------------------------------------
  // The empty-tree rule at work

  /** A successful loop starts with a successful add of its first tree. */
  lemma AddAllFirst(ns: Namespace, prev: string, t: Tree, rest: seq<Tree>,
                    reject: (Namespace, Tree) -> Option<string>) returns (m: Namespace)
    requires AddAll(ns, prev, [t] + rest, reject).Ok?
    ensures AddParseTree(ns, prev, t, reject) == Ok(m)
    ensures AddAll(ns, prev, [t] + rest, reject) == AddAll(m, t.name, rest, reject)
  {
    assert ([t] + rest)[0] == t && ([t] + rest)[1..] == rest;
    m := AddParseTree(ns, prev, t, reject).value;
  }

  /** Any tree `e` added after `x` and then another fragment `z` replaces
      `x`, even an empty one: the receiver is then `z`. */
  lemma EmptyRedefinitionAfterOtherNameReplaces(ns: Namespace, prev: string, x: Tree, z: Tree, e: Tree,
                                                reject: (Namespace, Tree) -> Option<string>)
    requires e.name == x.name && z.name != x.name
    requires AddAll(ns, prev, [x, z, e], reject).Ok?
    ensures Lookup(AddAll(ns, prev, [x, z, e], reject).value, x.name) == Some(e)
  {
    assert [x, z, e] == [x] + [z, e];
    var m1 := AddAllFirst(ns, prev, x, [z, e], reject);
    assert [z, e] == [z] + [e];
    var m2 := AddAllFirst(m1, x.name, z, [e], reject);
    assert [e] == [e] + [];
    var m3 := AddAllFirst(m2, z.name, e, [], reject);
    assert !KeepsOld(m2, z.name, e);
  }

  /** An empty tree added right after `x` under `x`'s name is ignored: the
      loop ends exactly as it would have after `x` alone. */
  lemma EmptyRedefinitionAfterSameNameIsIgnored(ns: Namespace, prev: string, x: Tree, e: Tree,
                                                reject: (Namespace, Tree) -> Option<string>)
    requires e.name == x.name && IsEmptyList(e.root)
    requires AddAll(ns, prev, [x, e], reject).Ok?
    ensures AddAll(ns, prev, [x, e], reject) == AddAll(ns, prev, [x], reject)
  {
    assert [x, e] == [x] + [e];
    var m1 := AddAllFirst(ns, prev, x, [e], reject);
    assert [e] == [e] + [];
    assert KeepsOld(m1, x.name, e);
    var m2 := AddAllFirst(m1, x.name, e, [], reject);
    assert m2 == m1;
    assert [x] == [x] + [];
    assert AddAll(ns, prev, [x], reject) == Ok(m1);
  }

  /** So the build ignores it too: whatever precedes `x`, the template is
      the one built without the empty tree. */
  lemma EmptyRedefinitionAfterSameNameLeavesBuild(pre: seq<Tree>, x: Tree, e: Tree,
                                                  reject: (Namespace, Tree) -> Option<string>)
    requires e.name == x.name && IsEmptyList(e.root)
    requires AddAll(InitialNamespace, DummyName, pre + [x, e], reject).Ok?
    ensures CreateTemplate(pre + [x, e], reject) == CreateTemplate(pre + [x], reject)
  {
    if |pre| == 0 {
      assert pre + [x, e] == [x, e] && pre + [x] == [x];
      EmptyRedefinitionAfterSameNameIsIgnored(InitialNamespace, DummyName, x, e, reject);
    } else {
      AddAllConcat(InitialNamespace, DummyName, pre, [x, e], reject);
      AddAllConcat(InitialNamespace, DummyName, pre, [x], reject);
      var m := AddAll(InitialNamespace, DummyName, pre, reject).value;
      EmptyRedefinitionAfterSameNameIsIgnored(m, pre[|pre| - 1].name, x, e, reject);
    }
  }
}

=== FILE: set.dfy ===
/** Template sets (set.go): collections of source entries and helper
    functions, each operation returning a new set, and the view build
    transition. Sets are values here; the sharing the program's shallow
    copies introduce is not modelled. A set's loader is the shared
    `*Loader` in the program; here the loader state is passed to the
    operations that use it and returned updated. */
module Sets {

  import opened Errors
  import opened Trees
  import opened Funcs
  import opened Parse
  import opened Load

  /** A `*Set` without its loader pointer: the source entries, in order,
      and the helper functions the parser may call. */
  datatype TemplateSet = TemplateSet(sources: seq<Source>, funcs: map<string, Func>)

  /** The entry `Add` appends for one file: only the path is set. */
  function FileEntry(file: string): Source {
    Source("", file, "")
  }

  /** `Loader.NewSet` / `newSet`: no sources and the default helpers. */
  function NewSet(): (r: TemplateSet)
    ensures |r.sources| == 0
    ensures r.funcs.Keys == {"runSet", "runView", "runTemplate", "raw", "nl2br"}
  {
    TemplateSet([], DefaultFuncs)
  }

  // ---------------------------------------------------------------------
  // Adding sources

  /** `Add(files...)`: one entry per file, appended in argument order. */
  function Add(s: TemplateSet, files: seq<string>): (r: TemplateSet)
    ensures |r.sources| == |s.sources| + |files|
    ensures r.sources[..|s.sources|] == s.sources
    ensures forall i :: 0 <= i < |files| ==> r.sources[|s.sources| + i] == FileEntry(files[i])
    ensures r.funcs == s.funcs
    decreases |files|
  {
    if |files| == 0 then s
    else
      var r := Add(TemplateSet(s.sources + [FileEntry(files[0])], s.funcs), files[1..]);
      assert r.sources[..|s.sources| + 1][..|s.sources|] == s.sources;
      r
  }

  /** Adding in two steps is adding once. */
  lemma {:induction false} AddConcat(s: TemplateSet, a: seq<string>, b: seq<string>)
    ensures Add(Add(s, a), b) == Add(s, a + b)
  {
    var x := Add(Add(s, a), b);
    var y := Add(s, a + b);
    assert |x.sources| == |y.sources|;
    forall i | 0 <= i < |x.sources| ensures x.sources[i] == y.sources[i] {
      if i < |s.sources| {
        assert x.sources[i] == x.sources[..|s.sources| + |a|][i];
        assert y.sources[i] == y.sources[..|s.sources|][i];
      } else if i < |s.sources| + |a| {
        assert x.sources[i] == x.sources[..|s.sources| + |a|][i];
        assert (a + b)[i - |s.sources|] == a[i - |s.sources|];
      } else {
        assert (a + b)[i - |s.sources|] == b[i - |s.sources| - |a|];
      }
    }
  }

  /** `Set(name, file)`: one entry with both name and path, appended. */
  function SetEntry(s: TemplateSet, name: string, file: string): (r: TemplateSet)
    ensures |r.sources| == |s.sources| + 1
    ensures r.sources[..|s.sources|] == s.sources
    ensures r.sources[|s.sources|] == Source("", file, name)
    ensures r.funcs == s.funcs
  {
    TemplateSet(s.sources + [Source("", file, name)], s.funcs)
  }

  /** Naming no template is adding the file. */
  lemma UnnamedSetIsAdd(s: TemplateSet, file: string)
    ensures SetEntry(s, "", file) == Add(s, [file])
  {
    var r := Add(s, [file]);
    assert r.sources[|s.sources| + 0] == FileEntry(file);
    assert r.sources == r.sources[..|s.sources|] + [r.sources[|s.sources|]];
  }

  // ---------------------------------------------------------------------
  // Merging sets

  /** All sources of `sets`, set by set, in order. */
  function SourcesOf(sets: seq<TemplateSet>): seq<Source>
    decreases |sets|
  {
    if |sets| == 0 then [] else SourcesOf(sets[..|sets| - 1]) + sets[|sets| - 1].sources
  }

  /** True iff `name` is bound by the base map or by one of `sets`. */
  predicate Provides(base: map<string, Func>, sets: seq<TemplateSet>, name: string) {
    name in base || exists i :: 0 <= i < |sets| && name in sets[i].funcs
  }

  /** The function bound to `name` after merging: that of the last set
      binding it, or the base map's if no set does. */
  function Winner(base: map<string, Func>, sets: seq<TemplateSet>, name: string): Func
    requires Provides(base, sets, name)
    decreases |sets|
  {
    if |sets| == 0 then base[name]
    else if name in sets[|sets| - 1].funcs then sets[|sets| - 1].funcs[name]
    else
      assert forall i :: 0 <= i < |sets| - 1 ==> sets[..|sets| - 1][i] == sets[i];
      Winner(base, sets[..|sets| - 1], name)
  }

  /** `AddSets(sets...)`: each set in turn appends its sources and then
      writes its functions over the ones already present. */
  function AddSets(s: TemplateSet, sets: seq<TemplateSet>): (r: TemplateSet)
    ensures r.sources == s.sources + SourcesOf(sets)
    ensures forall name :: name in r.funcs <==> Provides(s.funcs, sets, name)
    ensures forall name :: name in r.funcs ==> r.funcs[name] == Winner(s.funcs, sets, name)
    decreases |sets|
  {
    if |sets| == 0 then s
    else
      var next := TemplateSet(s.sources + sets[0].sources, s.funcs + sets[0].funcs);
      var r := AddSets(next, sets[1..]);
      AddSetsStep(s, sets);
      r
  }

  /** How the reference definitions split off the first set. */
  lemma {:induction false} AddSetsStep(s: TemplateSet, sets: seq<TemplateSet>)
    requires |sets| > 0
    ensures s.sources + SourcesOf(sets) == (s.sources + sets[0].sources) + SourcesOf(sets[1..])
    ensures forall name :: Provides(s.funcs, sets, name) <==> Provides(s.funcs + sets[0].funcs, sets[1..], name)
    ensures forall name :: Provides(s.funcs, sets, name) ==>
              Winner(s.funcs, sets, name) == Winner(s.funcs + sets[0].funcs, sets[1..], name)
  {
    SourcesOfFront(sets);
    forall name ensures Provides(s.funcs, sets, name) <==> Provides(s.funcs + sets[0].funcs, sets[1..], name) {
      if Provides(s.funcs, sets, name) && name !in s.funcs && name !in sets[0].funcs {
        var i :| 0 <= i < |sets| && name in sets[i].funcs;
        assert sets[1..][i - 1] == sets[i];
      }
      if Provides(s.funcs + sets[0].funcs, sets[1..], name) && name !in s.funcs + sets[0].funcs {
        var i :| 0 <= i < |sets[1..]| && name in sets[1..][i].funcs;
        assert sets[i + 1] == sets[1..][i];
      }
    }
    forall name | Provides(s.funcs, sets, name)
      ensures Winner(s.funcs, sets, name) == Winner(s.funcs + sets[0].funcs, sets[1..], name)
    {
      WinnerFront(s.funcs, sets, name);
    }
  }

  lemma {:induction false} SourcesOfFront(sets: seq<TemplateSet>)
    requires |sets| > 0
    ensures SourcesOf(sets) == sets[0].sources + SourcesOf(sets[1..])
    decreases |sets|
  {
    if |sets| > 1 {
      var init := sets[..|sets| - 1];
      SourcesOfFront(init);
      assert init[0] == sets[0];
      assert init[1..] == sets[1..][..|sets[1..]| - 1];
      assert sets[1..][|sets[1..]| - 1] == sets[|sets| - 1];
    } else {
      assert sets[..0] == [] && sets[1..] == [];
    }
  }

  lemma {:induction false} WinnerFront(base: map<string, Func>, sets: seq<TemplateSet>, name: string)
    requires |sets| > 0
    requires Provides(base, sets, name)
    ensures Provides(base + sets[0].funcs, sets[1..], name)
    ensures Winner(base, sets, name) == Winner(base + sets[0].funcs, sets[1..], name)
    decreases |sets|
  {
    var front := base + sets[0].funcs;
    if name !in front {
      var i :| 0 <= i < |sets| && name in sets[i].funcs;
      assert sets[1..][i - 1] == sets[i];
    }
    if |sets| > 1 {
      var last := sets[|sets| - 1];
      assert sets[1..][|sets[1..]| - 1] == last;
      if name !in last.funcs {
        var init := sets[..|sets| - 1];
        assert forall i :: 0 <= i < |sets| - 1 ==> init[i] == sets[i];
        assert init[0] == sets[0];
        assert init[1..] == sets[1..][..|sets[1..]| - 1];
        WinnerFront(base, init, name);
      }
    }
  }

  /** Adding sets one call at a time is adding them in one call. */
  lemma {:induction false} AddSetsConcat(s: TemplateSet, a: seq<TemplateSet>, b: seq<TemplateSet>)
    ensures AddSets(AddSets(s, a), b) == AddSets(s, a + b)
    decreases |a|
  {
    if |a| == 0 {
      assert a + b == b;
    } else {
      var next := TemplateSet(s.sources + a[0].sources, s.funcs + a[0].funcs);
      assert (a + b)[0] == a[0];
      assert (a + b)[1..] == a[1..] + b;
      AddSetsConcat(next, a[1..], b);
    }
  }

  /** `AddSet(x)`: the set's sources follow the receiver's and its
      functions win over the receiver's. */
  function AddSet(s: TemplateSet, x: TemplateSet): (r: TemplateSet)
    ensures r.sources == s.sources + x.sources
    ensures forall name :: name in r.funcs <==> name in s.funcs || name in x.funcs
    ensures forall name :: name in x.funcs ==> r.funcs[name] == x.funcs[name]
    ensures forall name :: name in s.funcs && name !in x.funcs ==> r.funcs[name] == s.funcs[name]
  {
    var r := AddSets(s, [x]);
    assert SourcesOf([x]) == SourcesOf([]) + x.sources;
    forall name | Provides(s.funcs, [x], name) && name !in x.funcs
      ensures Winner(s.funcs, [x], name) == s.funcs[name]
    {
      assert [x][..0] == [];
    }
    r
  }

  // ---------------------------------------------------------------------
  // Helper functions

  /** `AddFunc(name, fn)`: binds `name`, overwriting any earlier binding. */
  function AddFunc(s: TemplateSet, name: string, fn: Func): (r: TemplateSet)
    ensures r.sources == s.sources
    ensures r.funcs.Keys == s.funcs.Keys + {name}
    ensures r.funcs[name] == fn
    ensures forall k :: k in s.funcs && k != name ==> r.funcs[k] == s.funcs[k]
  {
    TemplateSet(s.sources, s.funcs[name := fn])
  }

  /** `AddFuncs(funcMap)`: binds every entry of the map, one key at a time
      in whatever order the map yields them; new entries win. */
  method AddFuncs(s: TemplateSet, funcMap: map<string, Func>) returns (r: TemplateSet)
    ensures r.sources == s.sources
    ensures r.funcs.Keys == s.funcs.Keys + funcMap.Keys
    ensures forall k :: k in funcMap ==> r.funcs[k] == funcMap[k]
    ensures forall k :: k in s.funcs && k !in funcMap ==> r.funcs[k] == s.funcs[k]
  {
    r := s;
    var todo := funcMap.Keys;
    while todo != {}
      invariant todo <= funcMap.Keys
      invariant r.sources == s.sources
      invariant r.funcs.Keys == s.funcs.Keys + (funcMap.Keys - todo)
      invariant forall k :: k in funcMap && k !in todo ==> r.funcs[k] == funcMap[k]
      invariant forall k :: k in s.funcs && k !in funcMap ==> r.funcs[k] == s.funcs[k]
      decreases todo
    {
      var name :| name in todo;
      r := AddFunc(r, name, funcMap[name]);
      todo := todo - {name};
    }
  }

  /** Adding a one-entry map is adding that function. */
  lemma AddFuncsSingle(s: TemplateSet, name: string, fn: Func, r: TemplateSet)
    requires r.sources == s.sources
    requires r.funcs.Keys == s.funcs.Keys + map[name := fn].Keys
    requires forall k :: k in map[name := fn] ==> r.funcs[k] == map[name := fn][k]
    requires forall k :: k in s.funcs && k !in map[name := fn] ==> r.funcs[k] == s.funcs[k]
    ensures r == AddFunc(s, name, fn)
  {
    var e := AddFunc(s, name, fn);
    assert forall k :: k in r.funcs ==> r.funcs[k] == e.funcs[k];
  }

  /** `Funcs()`: a fresh map with the same bindings. */
  method CopyFuncs(s: TemplateSet) returns (r: map<string, Func>)
    ensures r == s.funcs
  {
    r := map[];
    var todo := s.funcs.Keys;
    while todo != {}
      invariant todo <= s.funcs.Keys
      invariant r.Keys == s.funcs.Keys - todo
      invariant forall k :: k in r ==> r[k] == s.funcs[k]
      decreases todo
    {
      var name :| name in todo;
      r := r[name := s.funcs[name]];
      todo := todo - {name};
    }
  }

  /** `Sources()`: a fresh sequence holding the entries by value. */
  method CopySources(s: TemplateSet) returns (r: seq<Source>)
    ensures r == s.sources
  {
    var a := new Source[|s.sources|](_ => Source("", "", ""));
    var i := 0;
    while i < |s.sources|
      invariant 0 <= i <= |s.sources|
      invariant forall j :: 0 <= j < i ==> a[j] == s.sources[j]
    {
      a[i] := s.sources[i];
      i := i + 1;
    }
    r := a[..];
  }

  // ---------------------------------------------------------------------
  // Views

  /** A `*View` without its set pointer: the built template, if any. */
  datatype View = View(template: Option<Namespace>)

  /** What `create` leaves behind: its error, the view and the loader. */
  datatype Creation = Creation(err: Option<Error>, view: View, loader: Loader)

  /** A view's template, once built, is a complete namespace with a root. */
  predicate ValidView(v: View) {
    v.template.Some? ==> Complete(v.template.value)
  }

  /** True iff `create` keeps the view's template without rebuilding. */
  predicate Keeps(v: View, l: Loader) {
    v.template.Some? && !l.conf.autoReload
  }

  /** `create`: rebuild the view's template unless one exists and
      reloading is off; a failed rebuild keeps the old template. */
  function Create(s: TemplateSet, v: View, l: Loader, fs: FileSystem, lib: Library): (r: Creation)
    ensures Keeps(v, l) ==> r == Creation(None, v, l)
    ensures !Keeps(v, l) ==> (r.err.None? <==> BuildTemplate(l, s.sources, s.funcs, fs, lib).0.Ok?)
    ensures !Keeps(v, l) ==> r.loader == BuildTemplate(l, s.sources, s.funcs, fs, lib).1
    ensures !Keeps(v, l) && r.err.None? ==>
              r.view == View(Some(BuildTemplate(l, s.sources, s.funcs, fs, lib).0.value))
    ensures r.err.Some? ==> r.err.value == BuildTemplate(l, s.sources, s.funcs, fs, lib).0.error
    ensures r.err.Some? ==> r.view == v
    ensures r.err.None? ==> r.view.template.Some?
    ensures ValidView(v) ==> ValidView(r.view)
    ensures v.template.Some? ==> r.view.template.Some?
  {
    if Keeps(v, l) then Creation(None, v, l)
    else
      var (built, l') := BuildTemplate(l, s.sources, s.funcs, fs, lib);
      match built
      case Err(e) => Creation(Some(e), v, l')
      case Ok(t) => Creation(None, View(Some(t)), l')
  }

  /** With reloading on, a view's current template never matters: the
      rebuild yields the same error, template and loader either way. */
  lemma ReloadIgnoresCurrentTemplate(s: TemplateSet, t: Namespace, l: Loader, fs: FileSystem, lib: Library)
    requires l.conf.autoReload
    ensures Create(s, View(Some(t)), l, fs, lib).err == Create(s, View(None), l, fs, lib).err
    ensures Create(s, View(None), l, fs, lib).err.None? ==>
              Create(s, View(Some(t)), l, fs, lib) == Create(s, View(None), l, fs, lib)
    ensures Create(s, View(None), l, fs, lib).err.Some? ==>
              Create(s, View(Some(t)), l, fs, lib).view == View(Some(t))
  {
  }

  /** `View()`: a fresh view built once; the view is returned even when
      the build fails, with no template in it. */
  function MakeView(s: TemplateSet, l: Loader, fs: FileSystem, lib: Library): (r: Creation)
    ensures r.err.Some? <==> BuildTemplate(l, s.sources, s.funcs, fs, lib).0.Err?
    ensures r.err.Some? ==> r.err.value == BuildTemplate(l, s.sources, s.funcs, fs, lib).0.error
    ensures r.err.None? ==> r.view.template == Some(BuildTemplate(l, s.sources, s.funcs, fs, lib).0.value)
    ensures r.loader == BuildTemplate(l, s.sources, s.funcs, fs, lib).1
    ensures r.err.Some? ==> r.view.template.None?
    ensures r.err.None? ==> r.view.template.Some? && RootName in Names(r.view.template.value)
  {
    Create(s, View(None), l, fs, lib)
  }

  /** What `ViewMust` does: return the view or panic with the error. Either
      way the loader is the one the build left behind, because its tree
      cache is written through the shared pointer before the panic. */
  datatype Must = Returned(view: View, loader: Loader) | Panicked(err: Error, loader: Loader)

  function ViewMust(s: TemplateSet, l: Loader, fs: FileSystem, lib: Library): (r: Must)
    ensures r.Panicked? <==> MakeView(s, l, fs, lib).err.Some?
    ensures r.Panicked? ==> r.err == MakeView(s, l, fs, lib).err.value
    ensures r.Returned? ==> r.view.template.Some?
    ensures r.Returned? ==> r.view == MakeView(s, l, fs, lib).view
    ensures r.loader == BuildTemplate(l, s.sources, s.funcs, fs, lib).1
  {
    var c := MakeView(s, l, fs, lib);
    match c.err
    case Some(e) => Panicked(e, c.loader)
    case None => Returned(c.view, c.loader)
  }

  /** A cached view is served as it is, whatever the files now hold. */
  lemma CachedViewIgnoresFiles(s: TemplateSet, v: View, l: Loader, fs1: FileSystem, fs2: FileSystem,
                               lib1: Library, lib2: Library)
    requires v.template.Some? && !l.conf.autoReload
    ensures Create(s, v, l, fs1, lib1) == Create(s, v, l, fs2, lib2) == Creation(None, v, l)
  {
  }

  /** A set that names a file the loader never registered cannot yield a
      view, whatever the parser and the file system say. */
  lemma UnregisteredFileFailsView(s: TemplateSet, file: string, l: Loader, fs: FileSystem, lib: Library)
    requires file != "" && file !in l.sources
    ensures MakeView(Add(s, [file]), l, fs, lib).err.Some?
    ensures ViewMust(Add(s, [file]), l, fs, lib).Panicked?
  {
    var t := Add(s, [file]);
    assert t.sources[|s.sources| + 0] == FileEntry(file);
    UnresolvedEntryFailsBuild(l, t.sources, t.funcs, fs, lib, lib, |s.sources|);
  }
}

=== FILE: strings.dfy ===
/** The few operations of Go's `strings` package that the directory scan
    uses to filter files and derive template names. */
module Strings {

  import opened Errors

  /** `strings.HasPrefix`. */
  predicate HasPrefix(s: string, prefix: string) {
    |prefix| <= |s| && s[..|prefix|] == prefix
  }

  /** `strings.HasSuffix`. */
  predicate HasSuffix(s: string, suffix: string) {
    |suffix| <= |s| && s[|s| - |suffix|..] == suffix
  }

  /** True iff `pat` occurs in `s` starting at index `j`. */
  predicate OccursAt(s: string, pat: string, j: int) {
    0 <= j && j + |pat| <= |s| && s[j..j + |pat|] == pat
  }

  /** The first index at or after `from` where `pat` occurs in `s`. */
  function IndexFrom(s: string, pat: string, from: nat): (r: Option<nat>)
    ensures r.Some? ==> from <= r.value && OccursAt(s, pat, r.value)
    ensures r.Some? ==> forall j :: from <= j < r.value ==> !OccursAt(s, pat, j)
    ensures r.None? ==> forall j :: from <= j ==> !OccursAt(s, pat, j)
    decreases |s| - from
  {
    if from + |pat| > |s| then None
    else if s[from..from + |pat|] == pat then Some(from)
    else IndexFrom(s, pat, from + 1)
  }

  /** `strings.Index` for a non-empty pattern: the first occurrence. */
  function Index(s: string, pat: string): (r: Option<nat>)
    ensures r.Some? ==> OccursAt(s, pat, r.value)
    ensures r.Some? ==> forall j :: 0 <= j < r.value ==> !OccursAt(s, pat, j)
    ensures r.None? ==> forall j :: !OccursAt(s, pat, j)
  {
    IndexFrom(s, pat, 0)
  }

  /** `strings.Replace(s, pat, rep, 1)` for a non-empty `pat`: the first
      occurrence of `pat` is replaced by `rep` and the rest of `s` is kept. */
  function ReplaceFirst(s: string, pat: string, rep: string): (r: string)
    requires |pat| > 0
    ensures (forall j :: !OccursAt(s, pat, j)) ==> r == s
    ensures forall i :: OccursAt(s, pat, i) && (forall j :: 0 <= j < i ==> !OccursAt(s, pat, j)) ==>
              r == s[..i] + rep + s[i + |pat|..]
  {
    match Index(s, pat)
    case None => s
    case Some(i) =>
      FirstOccurrenceUnique(s, pat, i);
      s[..i] + rep + s[i + |pat|..]
  }

  /** Replacing the first occurrence of `pat` in `a + pat + b`, when `pat`
      does not start inside `a`, gives `a + rep + b`. */
  lemma ReplaceFirstSplit(a: string, pat: string, b: string, rep: string)
    requires |pat| > 0
    requires forall j :: 0 <= j < |a| ==> !OccursAt(a + pat + b, pat, j)
    ensures ReplaceFirst(a + pat + b, pat, rep) == a + rep + b
  {
    var s := a + pat + b;
    assert s[|a|..|a| + |pat|] == pat;
    assert s[..|a|] == a && s[|a| + |pat|..] == b;
  }

  /** The same, when the first `pat` in `a + pat` is the appended one. */
  lemma ReplaceFirstAfter(a: string, pat: string, b: string, rep: string)
    requires |pat| > 0 && Index(a + pat, pat) == Some(|a|)
    ensures ReplaceFirst(a + pat + b, pat, rep) == a + rep + b
  {
    forall j | 0 <= j < |a| ensures !OccursAt(a + pat + b, pat, j) {
      assert !OccursAt(a + pat, pat, j);
      if j + |pat| <= |a + pat + b| {
        assert (a + pat + b)[j..j + |pat|] == (a + pat)[j..j + |pat|];
      }
    }
    ReplaceFirstSplit(a, pat, b, rep);
  }

  /** Replacing introduces no character that neither `s` nor `rep` has. */
  lemma ReplaceFirstChars(s: string, pat: string, rep: string, c: char)
    requires |pat| > 0 && c !in s && c !in rep
    ensures c !in ReplaceFirst(s, pat, rep)
  {
    match Index(s, pat) {
      case None =>
      case Some(i) =>
        assert c !in s[..i] && c !in s[i + |pat|..] by {
          assert forall k :: 0 <= k < i ==> s[..i][k] == s[k];
          assert forall k :: i + |pat| <= k < |s| ==> s[i + |pat|..][k - i - |pat|] == s[k];
        }
    }
  }

  /** At most one index is the first occurrence of `pat`. */
  lemma FirstOccurrenceUnique(s: string, pat: string, i: nat)
    requires OccursAt(s, pat, i) && forall j :: 0 <= j < i ==> !OccursAt(s, pat, j)
    ensures forall k :: OccursAt(s, pat, k) && (forall j :: 0 <= j < k ==> !OccursAt(s, pat, j)) ==> k == i
  {
  }

  /** `strings.Replace(s, from, to, -1)` for one-character strings: every
      `from` becomes `to`, every other character is kept. */
  function ReplaceAllChar(s: string, from: char, to: char): (r: string)
    ensures |r| == |s|
    ensures forall i :: 0 <= i < |s| ==> r[i] == (if s[i] == from then to else s[i])
  {
    if |s| == 0 then []
    else [if s[0] == from then to else s[0]] + ReplaceAllChar(s[1..], from, to)
  }
}

=== FILE: trees.dfy ===
/** The parse trees produced by the template library, reduced to what the
    loader inspects: which node kinds exist, which fragments a node
    invokes, and the name each tree is defined under. */
module Trees {

  /** A node of a parsed template. `TemplateCall` is `{{template "name"}}`;
      `If`, `Range` and `With` carry their main and else lists; `Text`
      records only whether the text is blank; `Action` stands for every
      other node kind (actions, pipelines, break/continue, ...). */
  datatype Node =
    | TemplateCall(name: string)
    | ListOf(list: NodeList)
    | If(list: NodeList, elseList: NodeList)
    | Range(list: NodeList, elseList: NodeList)
    | With(list: NodeList, elseList: NodeList)
    | Text(blank: bool)
    | Comment
    | Action

  /** A `*parse.ListNode`, which may be nil (an absent else branch). */
  datatype NodeList = NilList | Nodes(nodes: seq<Node>)

  /** A `*parse.Tree`: the fragment's name and its root list. */
  datatype Tree = Tree(name: string, root: NodeList)

  predicate UniqueNames(ts: seq<Tree>) {
    forall i, j :: 0 <= i < j < |ts| ==> ts[i].name != ts[j].name
  }

  /** The `map[string]*parse.Tree` returned by `parse.Parse`, listed in the
      order the map happens to be iterated; a name occurs at most once. */
  type TreeSet = ts: seq<Tree> | UniqueNames(ts) witness []

  function Names(ts: seq<Tree>): set<string> {
    set i | 0 <= i < |ts| :: ts[i].name
  }

  /** The library's `parse.IsEmptyTree`: only blank text and comments. */
  predicate IsEmptyList(l: NodeList)
    decreases l
  {
    match l
    case NilList => true
    case Nodes(ns) => IsEmptySeq(ns)
  }

  predicate IsEmptySeq(ns: seq<Node>)
    decreases ns
  {
    |ns| == 0 || (IsEmptyNode(ns[0]) && IsEmptySeq(ns[1..]))
  }

  predicate IsEmptyNode(n: Node)
    decreases n
  {
    match n
    case Text(blank) => blank
    case Comment => true
    case ListOf(l) => IsEmptyList(l)
    case _ => false
  }
}
